=== FILE: README.md ===
# Shared whiteboard synchronisation — a Dafny model

This project models the synchronisation layer of a real-time shared whiteboard as pure state machines over explicit message datatypes, and proves properties of it.

- **Server session** (`server/server.js`). There is one `Session` record: the authoritative stroke history, the redo stack, and the user registry, a JavaScript `Map` kept in insertion order. Step functions cover connect, each message type, and close. Broadcasts are returned as a list of outbound messages, each addressed to the sender or to everyone.
- **Client reconciliation** (`client/canvas.js`, `client/main.js`). This covers:
  - the read-only mirror of the history;
  - the live-preview table of remote strokes in progress;
  - the cursor table with its five-second expiry;
  - the local pointer gesture;
  - the `onMessage` dispatch, including the users-list label rule.

Modules, one per component: `Common` (option type, JavaScript `||` and `slice`), `Protocol` (messages and records), `UserRegistry`, `Palette` (`pickColor`), `StrokeStore` (history and redo stack), `Server` (step functions), `SessionLaws` (invariants, laws and scenarios), `LivePreview`, `Presence` (cursors), `Drawing` (the gesture), `Client` (dispatch), and `Sync` (server and client together).

The palette is a parameter. Colour uniqueness is proved for any palette of distinct entries, such as the server's 30-entry expanded palette, over runs in which no connection arrives while every palette colour is held. The restriction is needed: a fallback colour is never reassigned, so a collision it creates outlives the users who caused it (`SessionLaws.OverflowThenLeaveCollides`). The identity from `randomUUID()`, the stroke id from `crypto.randomUUID()` and the time from `Date.now()` are also parameters.

Some behaviours of the code that a reader might not expect, all modelled as written:
- `cursor:move` takes the name and colour of the id named *in the message*, not of the sender (`SessionLaws.CursorIgnoresSender`).
- The server overwrites the colour of every stroke, eraser strokes included, not only brush strokes.
- The server does not check that a stroke has a point, or that it is present at all. A `stroke:end` without a stroke appends an empty slot, so history entries are `Option<Stroke>`.
- Broadcasts go to every connection, the sender included.

## Model

| member | source | states |
|---|---|---|
| `UserRegistry.Get` | server/server.js:100 | A lookup finds an entry exactly when the key is registered. With distinct keys it returns that key's entry. |
| `UserRegistry.Put` | server/server.js:100-102 | `users.set` makes the key map to the new entry and leaves every other key's entry alone. A present key is replaced in place, so roster order is kept. A new key is appended. Keys stay distinct. |
| `UserRegistry.Delete` | server/server.js:171 | `users.delete` leaves the key absent and keeps exactly the other slots. With distinct keys, the remaining slots keep their order: the registry minus the one slot at the key's position. Deleting an absent key changes nothing. |
| `UserRegistry.DeleteKeepsOthers` | server/server.js:171 | Deleting one key does not change the lookup of any other key. |
| `UserRegistry.DeleteDistinct` | server/server.js:171 | Deleting keeps keys distinct. Deleting a present key removes exactly one entry. |
| `UserRegistry.Values` | server/server.js:189 | The roster lists one user per registry slot, in insertion order. |
| `Palette.FirstUnused` | server/server.js:79-81 | The scan returns nothing exactly when every palette entry is in use. Otherwise it returns an entry not in use, and every entry before it is in use. |
| `Palette.PickColor` | server/server.js:76-84 | The result is always a palette colour. While some colour is free, it is the first free one in palette order. When all are taken, it is `palette[users.size mod palette length]`. |
| `Palette.DistinctCardinality` | server/server.js:79-81 | Supporting lemma for the pigeonhole argument about the scan: a palette without repeats has as many distinct colours as entries. |
| `Palette.UsedColorsBound` | server/server.js:78 | No more colours are in use than there are users. |
| `Palette.FreeColorExists` | server/server.js:76-81 | With fewer users than distinct palette entries, some palette colour is free. |
| `Palette.PickColorFresh` | server/server.js:76-81 | With fewer users than distinct palette entries, the picked colour differs from every current user's colour. |
| `StrokeStore.Append` | server/server.js:120-122 | After a new stroke, the timeline is the drawn strokes plus the new entry. Nothing is left to redo. |
| `StrokeStore.Undo` | server/server.js:129-131 | Undo keeps the timeline (drawn strokes, then undone ones in redo order) and draws one stroke fewer. It is a no-op on an empty history. |
| `StrokeStore.Redo` | server/server.js:136-138 | Redo keeps the timeline and draws one stroke more. It is a no-op on an empty redo stack. Both undo and redo preserve the total number of entries. |
| `StrokeStore.Clear` | server/server.js:161-163 | A clear leaves an empty timeline: nothing drawn and nothing to redo. |
| `StrokeStore.TimelineDetermines` | server/server.js:129-141 | A history is determined by its timeline and the number of strokes drawn. |
| `StrokeStore.UndoAfterAppend` | server/server.js:115-134 | Appending a stroke and then undoing restores the drawn history. The stroke is left as the only redo entry. |
| `StrokeStore.RedoAfterUndo` | server/server.js:129-141 | Undo then redo is the identity on a non-empty history. |
| `StrokeStore.UndoAfterRedo` | server/server.js:129-141 | Redo then undo is the identity on a non-empty redo stack. |
| `StrokeStore.RedoInvalidated` | server/server.js:120-163 | After a new stroke or a clear, redo changes nothing. |
| `Server.JoinName` | server/server.js:99 | The stored name is non-empty and at most 32 characters. A missing or empty name becomes "Anonymous". Otherwise it is the longest prefix of the given name that fits. |
| `Server.BroadcastUsers` | server/server.js:188-194 | One `users:update` to every connection, listing every registered user in registration order. |
| `Server.BroadcastState` | server/server.js:177-186 | One `canvas:state` to every connection, carrying the whole history as it is. |
| `Server.OnConnect` | server/server.js:86-93 | A new connection is registered as `{id, color}` with the colour `pickColor` chooses. A new id is appended at the end of the roster; a known id keeps its place. Other users and the history are untouched. The roster is broadcast. |
| `Server.OnJoin` | server/server.js:98-106 | Only the sender's name is set; its id and colour are kept. An unregistered sender gets a name-only entry, appended at the end of the roster; a registered one keeps its place. `user:init` goes to the sender with the history exactly as it is, then the roster goes to everyone. |
| `Server.Stamp` | server/server.js:116-118 | A stored stroke differs from the submitted one at most in colour. The colour is the sender's registered colour when that is set. A missing stroke stays missing. |
| `Server.OnLive` | server/server.js:109-127 | Every "stroke:" message is relayed verbatim first. Only `stroke:end` changes state: it appends exactly one stamped entry at the end of the history, empties the redo stack and broadcasts the history. |
| `Server.OnUndo` | server/server.js:129-134 | Undo sends nothing exactly when the history is empty. Otherwise it undoes and broadcasts. Users are untouched. |
| `Server.OnRedo` | server/server.js:136-141 | Redo sends nothing exactly when the redo stack is empty. Otherwise it redoes and broadcasts. Users are untouched. |
| `Server.OnCursor` | server/server.js:143-159 | No state changes. One message goes to everyone. Its colour is the registered colour of the claimed id, else the message's colour. Its name is the registered name, else "". |
| `Server.OnClear` | server/server.js:161-166 | The history and the redo stack become empty, and the empty history is broadcast. |
| `Server.OnMessage` | server/server.js:95-167 | Each message type goes to its handler: `user:join` to `OnJoin`, every "stroke:" message to `OnLive`, `undo`, `redo`, `cursor:move` and `canvas:clear` to theirs. Only `user:join` touches the registry. Join, cursor and unknown messages leave the history alone. Unknown types change nothing and send nothing. |
| `Server.OnClose` | server/server.js:169-174 | Exactly the closing connection's entry goes, and with distinct keys the others keep their order. An unregistered id changes nothing. Every other entry and the history are kept. The roster is broadcast. |
| `Server.Step` | server/server.js:86-174 | A connection is registered with the colour `pickColor` chooses, and the roster is broadcast. A message is handled by `OnMessage` and a close by `OnClose`. A connection ends registered, and a closing connection with an id ends unregistered. A `user:join` sender ends registered. No other message touches the registry. Connections, closes, joins and cursor messages leave the history alone. |
| `SessionLaws.InitialInv` | server/server.js:12-15 | The empty session satisfies the registry invariant. |
| `SessionLaws.ConnectPreservesInv` | server/server.js:76-93 | A connect with a fresh id and fewer users than palette entries keeps keys distinct, colours pairwise distinct and every entry labelable. |
| `SessionLaws.JoinPreservesInv` | server/server.js:98-106 | A join keeps the invariant: the entry's colour is unchanged and its name is non-empty. |
| `SessionLaws.ClosePreservesInv` | server/server.js:169-174 | A close keeps the invariant. |
| `SessionLaws.StepPreservesInv` | server/server.js:86-174 | Every admissible event keeps the invariant. |
| `SessionLaws.RunKeepsColorsDistinct` | server/server.js:76-93 | In any run where each connection arrives fresh while fewer users than palette entries are connected, every pair of users holds different colours. |
| `SessionLaws.ConnectAlwaysGetsPaletteColor` | server/server.js:82-83 | Past palette capacity, a connection still gets a palette colour. |
| `SessionLaws.JoinSnapshot` | server/server.js:104 | The `strokes` of `user:init` equal the history when the join is processed, and the join does not change the history. |
| `SessionLaws.RelayOnly` | server/server.js:109-114 | `stroke:start`, `stroke:point` and other "stroke:" messages are relayed and leave the session unchanged. |
| `SessionLaws.UndoAfterStrokeEnd` | server/server.js:115-134 | `stroke:end` then `undo:request`, from any two connections, restores the drawn history. The stamped stroke is left as the only redo entry. |
| `SessionLaws.UndoRedoInverse` | server/server.js:129-141 | Undo then redo, and redo then undo, each give back the whole session when they are not no-ops. |
| `SessionLaws.RedoAfterNewTimeline` | server/server.js:115-166 | After a `stroke:end` or a `canvas:clear`, `redo:request` changes nothing and sends nothing. |
| `SessionLaws.CursorIgnoresSender` | server/server.js:144 | The `cursor:move` output depends on the id in the message, not on the sending connection. |
| `SessionLaws.OverflowThenLeaveCollides` | server/server.js:76-84 | With a two-colour palette, three connections and the second's close leave two users, no more than the palette holds, who both hold the first colour. |
| `SessionLaws.OverflowRunInadmissible` | server/server.js:76-84 | That run meets the condition of `SessionLaws.RunKeepsColorsDistinct` for its first two connections and breaks it at the third, which arrives at capacity. |
| `SessionLaws.TwoParticipantScenario` | server/server.js:115-141 | A and B each finish a stroke declared black. History holds both in order, in their registered colours. Undo moves B's stroke to the redo stack, and redo restores both. |
| `LivePreview.EraserSize` | client/canvas.js:156 | The eraser square's side is the given size when truthy, else 20. It is never 0. |
| `LivePreview.Advance` | client/canvas.js:171-190 | `stroke:point` for an unknown id changes nothing. On a brush entry it sets `last` to the point; on an eraser entry it keeps `last`. No other entry changes. |
| `LivePreview.ApplyAsWritten` | client/canvas.js:148-196 | `handleRemoteEvent` as written. `stroke:start` records the id with `last` = the start point and touches no other entry. `stroke:point` advances that entry only. `stroke:end` and unknown types leave the table unchanged. No key is ever removed. |
| `LivePreview.ApplyAllAsWritten` | client/canvas.js:148-196 | Handling a run of messages as written never removes a key. |
| `LivePreview.AsWrittenStartLeavesTrace` | client/canvas.js:148-196 | As written, once a `stroke:start` is handled its id stays in the table through every later message. |
| `LivePreview.AsWrittenEndKeepsEntry` | client/canvas.js:192-195 | As written, a remote stroke's entry is still in the table after its `stroke:end`. |
| `LivePreview.Apply` | client/canvas.js:148-196 | The corrected `handleRemoteEvent` (see Findings). `stroke:start` records the id with `last` = the start point and the given tool, colour, width and size, and touches no other entry. `stroke:point` advances the entry as `LivePreview.Advance` does: a brush entry's `last` becomes the point, and the key set is kept. `stroke:end` removes exactly its stroke's id and touches no other entry. |
| `LivePreview.PointsKeepKeys` | client/canvas.js:171-190 | Point messages for a known id neither add nor remove entries and leave other entries alone. |
| `LivePreview.GestureLeavesNoTrace` | client/canvas.js:148-196 | With the corrected update, start, points and end for a new stroke id leave the table as it was. |
| `LivePreview.ApplyAllConcat` | client/canvas.js:148-196 | Applying two message runs one after the other is applying their concatenation. |
| `Presence.Prune` | client/canvas.js:250-254 | Expiry drops exactly the entries with now − ts > 5000 and keeps the rest unchanged. |
| `Presence.UpdateCursor` | client/canvas.js:237-242 | The entry is stored with ts = now. Afterwards every entry is fresh, and the other entries are exactly the old fresh ones. |
| `Presence.PruneIdempotent` | client/canvas.js:250-254 | Pruning twice at the same time is pruning once. |
| `Presence.PruneLater` | client/canvas.js:250-254 | A later expiry pass subsumes an earlier one. |
| `Drawing.PointerDown` | client/canvas.js:58-99 | Without a user id, nothing happens. With one, a gesture starts with exactly the down point and the tool state's id, tool, colour, width and size (eraser only). One `stroke:start` describing it is sent. |
| `Drawing.PointerMove` | client/canvas.js:101-129 | During a gesture, exactly the point is appended and sent after the cursor report. Without a gesture, only the cursor is reported. |
| `Drawing.PointerUp` | client/canvas.js:131-145 | The gesture ends. Without a gesture nothing is sent; otherwise the whole stroke is sent once. |
| `Drawing.LiveEventsConcat` | client/canvas.js:88-142 | Supporting lemma for the gesture results: the live messages of two send runs are those of each, in order. |
| `Drawing.Moves` | client/canvas.js:101-129 | Without a gesture, a run of moves only reports the cursor and starts nothing. During a gesture, the gesture continues with the same id. |
| `Drawing.MovesExtend` | client/canvas.js:106-109 | During a gesture, moves extend the stroke by exactly their points, in order, and send one `stroke:point` per point. |
| `Drawing.WholeGesture` | client/canvas.js:58-145 | Down, moves and up send one stroke whose points are the down point then the move points, under the id `stroke:start` announced. |
| `Client.Start` | client/main.js:16-48 | A client starts with no user id and no colour, its prompted name (main.js:48), an empty mirror, and empty live-preview, cursor and users tables (client/canvas.js:7-12). |
| `Client.ToolStateOf` | client/main.js:34-42 | The tool state carries the local user id and the toolbar selection. |
| `Client.Label` | client/main.js:71 | The label is "You" for the local user, else the name when truthy, else the first six characters of the id. |
| `Client.RosterView` | client/main.js:65-75 | The users list has one entry per user, in order, with its label and colour. |
| `Client.Dispatch` | client/main.js:53-81 | `canvas:state` replaces the mirror. `user:init` sets id, colour and name, and replaces the mirror only when strokes came. `users:update` replaces the list with exactly the labels and colours of the listed users, in order. `cursor:move` goes to the cursor table. Everything else goes to the live table through `handleRemoteEvent` as written. Nothing else changes. |
| `Client.DispatchCorrected` | client/main.js:53-81 | The same dispatch with the corrected live-table update: a `stroke:end` removes its stroke's id. Every other message is handled as `Client.Dispatch` handles it. |
| `Client.DispatchAll` | client/main.js:53-81 | Without a `user:init`, the local id never changes. After a run ending in `canvas:state`, the mirror is that message's history. |
| `Client.DispatchAllCorrected` | client/main.js:53-81 | The same fold over `Client.DispatchCorrected`. Without a `user:init`, the local id never changes. |
| `Client.RelaysAsWritten` | client/main.js:78-80 | A client handling a run of relayed live-preview messages one by one changes only its live table, which ends as the as-written fold over the run. |
| `Client.RelaysCorrected` | client/main.js:78-80 | The same with the corrected update: only the live table changes, and it ends as the corrected fold over the run. |
| `Client.MirrorIsBroadcastValue` | client/canvas.js:231-235 | After any messages, the mirror is either what it was or, verbatim, a history one of the messages carried. |
| `Client.NoDrawingBeforeInit` | client/main.js:16-58 | Until `user:init` arrives the user id stays null, so a pointer-down starts nothing and sends nothing. |
| `Sync.PutKeepsLabelable` | server/server.js:100-102 | Storing a labelable entry keeps every roster entry labelable. |
| `Sync.StepKeepsLabelable` | server/server.js:86-174 | Every entry the server holds has an id or a non-empty name, whatever the palette. |
| `Sync.OutputsHandleable` | server/server.js:188-194 | Every roster the server sends can be rendered by the users-list rule. |
| `Sync.BroadcastInstallsHistory` | server/server.js:177-186 | A client receiving any history-carrying message of a step mirrors the server's history after that step. |
| `Sync.OnlyInitIsPrivate` | server/server.js:104 | `user:init` goes only to the joining connection. Every other message goes to all connections. |
| `Sync.GestureReachesHistory` | server/server.js:115-123 | A client's gesture lands as one new last history entry with the sender's registered colour, the gesture's id and points. Every client receiving the broadcast mirrors it. |
| `Sync.AsWrittenPreviewLeavesTrace` | client/canvas.js:148-196 | As written, another client that handles a whole gesture's relayed live preview, message by message through `Client.DispatchAll`, keeps the gesture's id in its table. |
| `Sync.CorrectedPreviewLeavesNoTrace` | client/canvas.js:148-196 | With the corrected update, another client that handles a whole gesture's relayed live preview, message by message through `Client.DispatchAllCorrected`, ends in exactly the state it started in. |

## Left out

- Palette construction from ten base hues by HSL conversion (server/server.js:17-74). It is floating-point arithmetic. The palette is a parameter, assumed distinct where uniqueness is claimed.
- The HTTP and WebSocket setup (server/server.js:1-10), the `readyState` checks in the send loops, and client/websocket.js. These are transport. Broadcasts are modelled as outbound messages to the sender or to all, and skipping closed connections is not modelled.
- Malformed JSON. `JSON.parse` throws in the message handler (server/server.js:96); this is host-runtime behaviour.
- Messages carrying values of the wrong kind: a non-string `name` (which `String()` would convert), or a `cursor:move` without `userId`. The model's message fields have fixed types.
- Canvas drawing: `clearRect`, paths, `redrawCanvas`, `setTool`, the resize handlers, and the cursor dots and labels. Only the state these routines read and write is modelled.
- DOM wiring in client/main.js: `prompt`, buttons, colour picker, `innerHTML`. The toolbar is a `Selection` parameter. The undo, redo and clear buttons only send the corresponding messages.
- Coordinates, widths and sizes are integers. The source passes them through as JavaScript numbers or input strings and never computes with them, apart from the eraser's `size || 20`.
- `renderCursorsOverlay` returns early before any overlay canvas exists. The model assumes the overlay exists, so every cursor update prunes.
- Name lengths count Dafny characters. The source's `slice(0, 32)` and `slice(0, 6)` count UTF-16 code units, so the two differ only for characters outside the Basic Multilingual Plane.
- Client.Label: requires an entry with an id or a non-empty name. The source would throw on any other entry. `Sync.OutputsHandleable` proves the server never sends one.
- Client.RosterView: requires every listed user to be labelable, for the same reason as `Client.Label`.
- Client.Dispatch: requires a `users:update` to list only labelable users, for the same reason as `Client.Label`.
- UserRegistry.Put: with a present key it replaces every slot carrying that key. This matches `Map.set` whenever keys are distinct, which `SessionLaws.Inv` maintains.
- Presence.UpdateCursor: takes one time `now` for storing the entry and for the expiry pass. The source calls `Date.now()` once when storing (client/canvas.js:240) and again for each entry it checks (client/canvas.js:251), so a later clock reading could expire an entry the model keeps.
- Presence.Prune: uses a single time for the whole pass, for the same reason as `Presence.UpdateCursor`.
- Client.ToolStateOf: takes the colour from the `Selection` parameter. In the source, `user:init` writes the server-assigned colour into the disabled colour picker (client/main.js:22, 61-62), and `getToolState` reads the picker (client/main.js:36), so every stroke drawn after init carries that colour. The model does not tie the selection colour to `ClientState.color`; the server's stamping (`Server.Stamp`) makes the stored colour the registered one whenever the sender has one.
- SessionLaws.RunKeepsColorsDistinct: promises distinct colours only for runs in which every connection arrives while fewer users than palette entries are connected. The server never reassigns a colour, so once a connection at capacity has shared a colour, the sharing survives later departures even when the user count drops back within the palette (`SessionLaws.OverflowThenLeaveCollides`).
- Server.OnClose: models `if (ws.userId)` as a check for the empty id. Server-generated ids are never empty.

## Findings

| source | as written | input that shows it | evidently intended | confidence | as-written member | corrected member |
|---|---|---|---|---|---|---|
| client/canvas.js:192-195 | `activeRemoteStrokes.delete(strokeId)`, where `strokeId` comes from the top level of the message | `stroke:start {strokeId: "s1", …}` then `stroke:end {stroke: {id: "s1", …}}`, the only shape client/canvas.js:142 sends, leaves "s1" in the table for good | remove the entry under `data.stroke.id` | high; not executed | `Sync.AsWrittenPreviewLeavesTrace` (of `LivePreview.ApplyAsWritten`, which `Client.Dispatch` uses) | `Sync.CorrectedPreviewLeavesNoTrace` (of `LivePreview.Apply`, which `Client.DispatchCorrected` uses) |

=== FILE: client.dfy ===
/** The client's reconciliation state and its `onMessage` dispatch: the
    read-only mirror of the server's history, the live-preview and cursor
    tables, the local identity and the users list. The clock (`Date.now()`)
    is a parameter. */
module Client {
  import opened Common
  import opened Protocol
  import opened LivePreview
  import opened Presence
  import opened Drawing

  /** One entry of the users list: its text and its background colour. */
  datatype RosterEntry = RosterEntry(text: string, color: Option<Color>)

  /** `localUserId`, `localColor`, `localName`, the canvas module's `strokes`,
      `activeRemoteStrokes` and `cursors`, and the rendered users list. */
  datatype ClientState = ClientState(
    userId: Option<Id>,
    color: Option<Color>,
    name: Option<string>,
    mirror: seq<Option<Stroke>>,
    live: LiveTable,
    cursors: CursorTable,
    roster: seq<RosterEntry>)

  /** A client at start-up: it has a display name from the prompt, no id or
      colour yet, and nothing mirrored, previewed or listed. */
  function Start(name: string): (c: ClientState)
    ensures c.userId == None && c.color == None && c.name == Some(name)
    ensures c.mirror == [] && c.live == map[] && c.cursors == map[] && c.roster == []
  {
    ClientState(None, None, Some(name), [], map[], map[], [])
  }

  /** What the toolbar shows: colour picker, width, current tool, eraser size. */
  datatype Selection = Selection(color: Color, width: int, tool: Tool, eraserSize: Option<int>)

  /** `getToolState()`: the selection with the local user id, null until
      `user:init` has arrived. */
  function ToolStateOf(c: ClientState, sel: Selection): (ts: ToolState)
    ensures ts.userId == c.userId
    ensures ts.color == sel.color && ts.width == sel.width && ts.tool == sel.tool && ts.eraserSize == sel.eraserSize
  {
    ToolState(sel.color, sel.width, sel.tool, c.userId, sel.eraserSize)
  }

  const IdPrefixLength := 6
  const SelfLabel := "You"

  /** The entry is the local user (`u.id === localUserId`; an entry without an
      id never matches). */
  predicate IsLocal(local: Option<Id>, u: User)
  {
    u.id.Some? && local == u.id
  }

  /** The users-list label: "You" for the local user, else the name, else the
      first six characters of the id. */
  function Label(local: Option<Id>, u: User): (l: string)
    requires Labelable(u)
    ensures IsLocal(local, u) ==> l == SelfLabel
    ensures !IsLocal(local, u) && Truthy(u.name) ==> l == u.name.value
    ensures !IsLocal(local, u) && !Truthy(u.name) ==>
      l <= u.id.value && |l| == Min(IdPrefixLength, |u.id.value|)
  {
    if IsLocal(local, u) then SelfLabel
    else if Truthy(u.name) then u.name.value
    else Slice(u.id.value, IdPrefixLength)
  }

  /** The users list rendered from a `users:update`, one entry per user in order. */
  function RosterView(local: Option<Id>, users: seq<User>): (v: seq<RosterEntry>)
    requires forall u :: u in users ==> Labelable(u)
    ensures |v| == |users|
    ensures forall i :: 0 <= i < |users| ==> v[i] == RosterEntry(Label(local, users[i]), users[i].color)
  {
    seq(|users|, i requires 0 <= i < |users| => RosterEntry(Label(local, users[i]), users[i].color))
  }

  /** A message the client can handle without failing. */
  predicate Handleable(m: ServerMsg)
  {
    m.UsersUpdate? ==> forall u :: u in m.users ==> Labelable(u)
  }

  /** `onMessage`: `canvas:state` and `user:init` replace the mirror,
      `users:update` re-renders the users list, `cursor:move` updates the
      cursor table, and everything else goes to the live-preview table as
      `handleRemoteEvent` updates it, where `stroke:end` removes nothing. */
  function Dispatch(c: ClientState, m: ServerMsg, now: int): (c': ClientState)
    requires Handleable(m)
    ensures m.CanvasState? ==> c'.mirror == m.strokes
    ensures m.UserInit? ==> c'.mirror == (if m.snapshot.Some? then m.snapshot.value else c.mirror)
    ensures !m.CanvasState? && !m.UserInit? ==> c'.mirror == c.mirror
    ensures m.UserInit? ==> c'.userId == Some(m.userId) && c'.color == m.color && c'.name == Some(m.name)
    ensures !m.UserInit? ==> c'.userId == c.userId && c'.color == c.color && c'.name == c.name
    ensures m.Relay? ==> c'.live == ApplyAsWritten(c.live, m.event)
    ensures !m.Relay? ==> c'.live == c.live
    ensures m.CursorOut? ==> c'.cursors == UpdateCursor(c.cursors, m.userId, m.x, m.y, m.color, m.name, now)
    ensures !m.CursorOut? ==> c'.cursors == c.cursors
    ensures m.UsersUpdate? ==> c'.roster == RosterView(c.userId, m.users)
    ensures !m.UsersUpdate? ==> c'.roster == c.roster
  {
    match m
    case CanvasState(strokes) => c.(mirror := strokes)
    case UserInit(userId, name, color, _, snapshot) =>
      c.(userId := Some(userId), color := color, name := Some(name),
         mirror := if snapshot.Some? then snapshot.value else c.mirror)
    case UsersUpdate(users) => c.(roster := RosterView(c.userId, users))
    case CursorOut(userId, name, x, y, color) =>
      c.(cursors := UpdateCursor(c.cursors, userId, x, y, color, name, now))
    case Relay(ev) => c.(live := ApplyAsWritten(c.live, ev))
  }

  /** `onMessage` with the live-preview table updated by the corrected
      `handleRemoteEvent`, whose `stroke:end` removes the id of the stroke it
      carries; every other message is handled as `Dispatch` handles it. */
  function DispatchCorrected(c: ClientState, m: ServerMsg, now: int): (c': ClientState)
    requires Handleable(m)
    ensures m.Relay? ==> c' == c.(live := Apply(c.live, m.event))
    ensures m.Relay? && m.event.StrokeEnd? && m.event.stroke.Some? ==> m.event.stroke.value.id !in c'.live
    ensures !m.Relay? ==> c' == Dispatch(c, m, now)
  {
    if m.Relay? then c.(live := Apply(c.live, m.event)) else Dispatch(c, m, now)
  }

  /** Handling a sequence of messages, all at time `now`. Only a
      `user:init` changes the local identity. */
  function DispatchAll(c: ClientState, ms: seq<ServerMsg>, now: int): (c': ClientState)
    requires forall i :: 0 <= i < |ms| ==> Handleable(ms[i])
    ensures NoInit(ms) ==> c'.userId == c.userId
    ensures |ms| > 0 && ms[|ms| - 1].CanvasState? ==> c'.mirror == ms[|ms| - 1].strokes
    decreases |ms|
  {
    if ms == [] then c else DispatchAll(Dispatch(c, ms[0], now), ms[1..], now)
  }

  /** Handling a sequence of messages with the corrected live-table update. */
  function DispatchAllCorrected(c: ClientState, ms: seq<ServerMsg>, now: int): (c': ClientState)
    requires forall i :: 0 <= i < |ms| ==> Handleable(ms[i])
    ensures NoInit(ms) ==> c'.userId == c.userId
    decreases |ms|
  {
    if ms == [] then c else DispatchAllCorrected(DispatchCorrected(c, ms[0], now), ms[1..], now)
  }

  /** The messages the server relays for a run of live-preview events. */
  function Relays(evs: seq<LiveEvent>): (ms: seq<ServerMsg>)
    ensures |ms| == |evs|
    ensures forall i :: 0 <= i < |evs| ==> ms[i] == Relay(evs[i])
  {
    seq(|evs|, i requires 0 <= i < |evs| => Relay(evs[i]))
  }

  /** A client handling relayed events one after another changes only its
      live-preview table, exactly as the as-written fold does. */
  lemma {:induction false} RelaysAsWritten(c: ClientState, evs: seq<LiveEvent>, now: int)
    ensures DispatchAll(c, Relays(evs), now) == c.(live := ApplyAllAsWritten(c.live, evs))
    decreases |evs|
  {
    if evs != [] {
      var c1 := c.(live := ApplyAsWritten(c.live, evs[0]));
      assert Relays(evs)[1..] == Relays(evs[1..]);
      RelaysAsWritten(c1, evs[1..], now);
    }
  }

  /** The same for the corrected live-table update. */
  lemma {:induction false} RelaysCorrected(c: ClientState, evs: seq<LiveEvent>, now: int)
    ensures DispatchAllCorrected(c, Relays(evs), now) == c.(live := ApplyAll(c.live, evs))
    decreases |evs|
  {
    if evs != [] {
      var c1 := c.(live := Apply(c.live, evs[0]));
      assert Relays(evs)[1..] == Relays(evs[1..]);
      RelaysCorrected(c1, evs[1..], now);
    }
  }

  /** The strokes a message would install as the mirror, if any. */
  predicate Carries(m: ServerMsg, strokes: seq<Option<Stroke>>)
  {
    (m.CanvasState? && m.strokes == strokes) || (m.UserInit? && m.snapshot == Some(strokes))
  }

  /** The mirror is never edited locally: after any messages it is either what
      it was or, verbatim, the history one of those messages carried. */
  lemma {:induction false} MirrorIsBroadcastValue(c: ClientState, ms: seq<ServerMsg>, now: int)
    requires forall i :: 0 <= i < |ms| ==> Handleable(ms[i])
    ensures var c' := DispatchAll(c, ms, now);
            c'.mirror == c.mirror || exists i :: 0 <= i < |ms| && Carries(ms[i], c'.mirror)
    decreases |ms|
  {
    if ms != [] {
      var c1 := Dispatch(c, ms[0], now);
      MirrorIsBroadcastValue(c1, ms[1..], now);
      var c' := DispatchAll(c, ms, now);
      assert c' == DispatchAll(c1, ms[1..], now);
      if c'.mirror != c1.mirror {
        var i :| 0 <= i < |ms[1..]| && Carries(ms[1..][i], c'.mirror);
        assert Carries(ms[i + 1], c'.mirror);
      } else if c1.mirror != c.mirror {
        assert Carries(ms[0], c'.mirror);
      }
    }
  }

  /** No message but `user:init` gives the client an id. */
  predicate NoInit(ms: seq<ServerMsg>)
  {
    forall i :: 0 <= i < |ms| ==> !ms[i].UserInit?
  }

  /** Until a `user:init` arrives the tool state exposes no user id, so a
      pointer-down starts no gesture and sends nothing. */
  lemma {:induction false} NoDrawingBeforeInit(c: ClientState, ms: seq<ServerMsg>, now: int, sel: Selection, strokeId: string, p: Point)
    requires forall i :: 0 <= i < |ms| ==> Handleable(ms[i])
    requires NoInit(ms)
    requires c.userId == None
    ensures DispatchAll(c, ms, now).userId == None
    ensures PointerDown(None, ToolStateOf(DispatchAll(c, ms, now), sel), strokeId, p) == GestureStep(None, [])
  {
  }
}

=== FILE: common.dfy ===
/** Small helpers shared by the whole model: an optional value, and the
    JavaScript idioms the whiteboard code leans on — `a || b` over strings
    that may be missing, and `s.slice(0, n)`. */
module Common {

  /** A value that may be absent (`undefined` / `null` on the wire). */
  datatype Option<+T> = None | Some(value: T)

  function Min(a: int, b: int): int
  {
    if a <= b then a else b
  }

  /** JavaScript truthiness of a string that may be missing: both
      `undefined` and `""` are falsy. */
  predicate Truthy(o: Option<string>)
  {
    o.Some? && o.value != ""
  }

  /** `a || b` where `b` is always a string. */
  function OrElse(a: Option<string>, b: string): string
  {
    if Truthy(a) then a.value else b
  }

  /** `a || b` where both sides may be missing. */
  function Or(a: Option<string>, b: Option<string>): Option<string>
  {
    if Truthy(a) then a else b
  }

  /** `s.slice(0, n)`: the first `n` characters, or all of `s` when it is shorter. */
  function Slice(s: string, n: nat): (r: string)
    ensures r <= s
    ensures |r| == Min(n, |s|)
  {
    s[..Min(n, |s|)]
  }
}

=== FILE: drawing.dfy ===
/** The local drawing gesture (`setupDrawing`): pointer down starts a
    stroke, each move extends it, pointer up sends it whole. The gesture is
    the stroke in progress, present exactly while drawing. Pixels drawn
    locally are not modelled; the messages sent are. */
module Drawing {
  import opened Common
  import opened Protocol
  import LivePreview

  /** `getToolState()`: the toolbar's selection and the local user id. */
  datatype ToolState = ToolState(color: Color, width: int, tool: Tool, userId: Option<Id>, eraserSize: Option<int>)

  /** `currentStroke`; `drawing` is true exactly when it is present. */
  type Gesture = Option<Stroke>

  datatype GestureStep = GestureStep(gesture: Gesture, sent: seq<ClientMsg>)

  /** Drawing needs a user id, which arrives with `user:init`. */
  predicate MayDraw(ts: ToolState)
  {
    Truthy(ts.userId)
  }

  /** `pointerdown`, with `crypto.randomUUID()` passed in as `strokeId`. */
  function PointerDown(g: Gesture, ts: ToolState, strokeId: string, p: Point): (r: GestureStep)
    ensures !MayDraw(ts) ==> r == GestureStep(g, [])
    ensures MayDraw(ts) ==>
      r.gesture.Some? &&
      r.gesture.value.id == strokeId && r.gesture.value.userId == ts.userId.value &&
      r.gesture.value.tool == ts.tool && r.gesture.value.color == ts.color &&
      r.gesture.value.width == ts.width && r.gesture.value.points == [p] &&
      r.gesture.value.size == (if ts.tool == Eraser then ts.eraserSize else None)
    ensures MayDraw(ts) ==>
      r.sent == [Live(StrokeStart(strokeId, ts.color, ts.width, ts.tool, ts.userId.value, r.gesture.value.size, p))]
  {
    if !MayDraw(ts) then GestureStep(g, [])
    else
      var size := if ts.tool == Eraser then ts.eraserSize else None;
      var st := Stroke(strokeId, ts.userId.value, ts.tool, ts.color, ts.width, size, [p]);
      GestureStep(Some(st), [Live(StrokeStart(strokeId, ts.color, ts.width, ts.tool, ts.userId.value, size, p))])
  }

  /** The cursor report a `pointermove` sends, if the user has an id. */
  function CursorReport(ts: ToolState, p: Point): seq<ClientMsg>
  {
    if MayDraw(ts) then [CursorMove(ts.userId.value, p.x, p.y, None)] else []
  }

  /** `pointermove`: report the cursor; while drawing, extend the stroke by
      the point and send it. */
  function PointerMove(g: Gesture, ts: ToolState, p: Point): (r: GestureStep)
    ensures g.None? ==> r == GestureStep(None, CursorReport(ts, p))
    ensures g.Some? ==> r.gesture == Some(g.value.(points := g.value.points + [p]))
    ensures g.Some? ==> r.sent == CursorReport(ts, p) + [Live(StrokePoint(g.value.id, p))]
  {
    match g
    case None => GestureStep(None, CursorReport(ts, p))
    case Some(st) =>
      GestureStep(Some(st.(points := st.points + [p])), CursorReport(ts, p) + [Live(StrokePoint(st.id, p))])
  }

  /** `pointerup`: without a gesture nothing happens; otherwise the whole
      stroke is sent and the gesture ends. */
  function PointerUp(g: Gesture): (r: GestureStep)
    ensures r.gesture == None
    ensures g.None? ==> r.sent == []
    ensures g.Some? ==> r.sent == [Live(StrokeEnd(g))]
  {
    match g
    case None => GestureStep(None, [])
    case Some(_) => GestureStep(None, [Live(StrokeEnd(g))])
  }

  /** A run of pointer moves, collecting what they send. Without a gesture
      they only report the cursor; during one they keep its id. */
  function Moves(g: Gesture, ts: ToolState, ps: seq<Point>): (r: GestureStep)
    ensures g.None? ==> r.gesture == None
    ensures g.None? ==> forall i :: 0 <= i < |r.sent| ==> r.sent[i].CursorMove?
    ensures g.Some? ==> r.gesture.Some? && r.gesture.value.id == g.value.id
    decreases |ps|
  {
    if ps == [] then GestureStep(g, [])
    else
      var first := PointerMove(g, ts, ps[0]);
      var rest := Moves(first.gesture, ts, ps[1..]);
      GestureStep(rest.gesture, first.sent + rest.sent)
  }

  /** The live-preview messages among those sent. */
  function LiveEvents(ms: seq<ClientMsg>): (evs: seq<LiveEvent>)
    decreases |ms|
  {
    if ms == [] then []
    else (if ms[0].Live? then [ms[0].event] else []) + LiveEvents(ms[1..])
  }

  lemma {:induction false} LiveEventsConcat(a: seq<ClientMsg>, b: seq<ClientMsg>)
    ensures LiveEvents(a + b) == LiveEvents(a) + LiveEvents(b)
    decreases |a|
  {
    if a == [] {
      assert a + b == b;
    } else {
      assert (a + b)[0] == a[0];
      assert (a + b)[1..] == a[1..] + b;
      LiveEventsConcat(a[1..], b);
    }
  }

  /** While drawing, moves extend the stroke by exactly the points, in order,
      and send exactly one `stroke:point` per point. */
  lemma {:induction false} MovesExtend(st: Stroke, ts: ToolState, ps: seq<Point>)
    ensures Moves(Some(st), ts, ps).gesture == Some(st.(points := st.points + ps))
    ensures LiveEvents(Moves(Some(st), ts, ps).sent) == LivePreview.PointEvents(st.id, ps)
    decreases |ps|
  {
    if ps == [] {
      assert st.points + ps == st.points;
    } else {
      var st1 := st.(points := st.points + [ps[0]]);
      MovesExtend(st1, ts, ps[1..]);
      assert st1.points + ps[1..] == st.points + ps;
      var first := PointerMove(Some(st), ts, ps[0]);
      LiveEventsConcat(first.sent, Moves(Some(st1), ts, ps[1..]).sent);
      LiveEventsConcat(CursorReport(ts, ps[0]), [Live(StrokePoint(st.id, ps[0]))]);
      assert LiveEvents(CursorReport(ts, ps[0])) == [];
      assert LivePreview.PointEvents(st.id, ps) == [StrokePoint(st.id, ps[0])] + LivePreview.PointEvents(st.id, ps[1..]);
    }
  }

  /** A whole gesture — down, moves, up — by a user with an id sends one
      stroke whose points are the down point then the move points, in order,
      carrying the id its `stroke:start` announced. */
  lemma WholeGesture(ts: ToolState, strokeId: string, p0: Point, ps: seq<Point>)
    requires MayDraw(ts)
    ensures var down := PointerDown(None, ts, strokeId, p0);
            var moves := Moves(down.gesture, ts, ps);
            var up := PointerUp(moves.gesture);
            && moves.gesture.Some?
            && up.sent == [Live(StrokeEnd(moves.gesture))]
            && moves.gesture.value.points == [p0] + ps
            && moves.gesture.value.id == strokeId
            && |down.sent| == 1 && down.sent[0].event.strokeId == strokeId
            && up.gesture == None
  {
    var down := PointerDown(None, ts, strokeId, p0);
    MovesExtend(down.gesture.value, ts, ps);
  }
}

=== FILE: history.dfy ===
/** The authoritative stroke history and its redo stack. The two stacks
    together encode one timeline: the drawn strokes, followed by the undone
    ones in the order redo would bring them back. Undo and redo only move
    the boundary along that timeline; a new stroke or a clear starts a new
    one. */
module StrokeStore {
  import opened Common
  import opened Protocol

  /** What `strokes.push(data.stroke)` stores: a stroke, or nothing when the
      `stroke:end` message carried none. */
  type Entry = Option<Stroke>

  /** `strokes` and `redoStack`; the redo stack's top is its last element. */
  datatype History = History(strokes: seq<Entry>, redo: seq<Entry>)

  const Empty := History([], [])

  function Reverse<T>(s: seq<T>): (r: seq<T>)
    ensures |r| == |s|
    ensures forall i :: 0 <= i < |s| ==> r[i] == s[|s| - 1 - i]
  {
    if s == [] then [] else Reverse(s[1..]) + [s[0]]
  }

  lemma ReverseSnoc<T>(s: seq<T>, x: T)
    ensures Reverse(s + [x]) == [x] + Reverse(s)
  {
    assert forall i :: 0 <= i < |s| + 1 ==> Reverse(s + [x])[i] == ([x] + Reverse(s))[i];
  }

  /** The drawn strokes followed by what redo would restore, in order. */
  function Timeline(h: History): seq<Entry>
  {
    h.strokes + Reverse(h.redo)
  }

  /** `stroke:end`: the entry goes at the end and the redo stack is emptied,
      so the timeline becomes exactly what is drawn plus the new entry. */
  function Append(h: History, e: Entry): (h': History)
    ensures Timeline(h') == h.strokes + [e]
    ensures h'.strokes == Timeline(h')
  {
    History(h.strokes + [e], [])
  }

  /** `undo:request`: no change on an empty history; otherwise the same
      timeline with one stroke fewer drawn. */
  function Undo(h: History): (h': History)
    ensures Timeline(h') == Timeline(h)
    ensures h.strokes == [] ==> h' == h
    ensures h.strokes != [] ==> |h'.strokes| == |h.strokes| - 1
    ensures |h'.strokes| + |h'.redo| == |h.strokes| + |h.redo|
  {
    if h.strokes == [] then h
    else
      var n := |h.strokes| - 1;
      ReverseSnoc(h.redo, h.strokes[n]);
      assert h.strokes == h.strokes[..n] + [h.strokes[n]];
      History(h.strokes[..n], h.redo + [h.strokes[n]])
  }

  /** `redo:request`: no change on an empty redo stack; otherwise the same
      timeline with one more stroke drawn. */
  function Redo(h: History): (h': History)
    ensures Timeline(h') == Timeline(h)
    ensures h.redo == [] ==> h' == h
    ensures h.redo != [] ==> |h'.strokes| == |h.strokes| + 1
    ensures |h'.strokes| + |h'.redo| == |h.strokes| + |h.redo|
  {
    if h.redo == [] then h
    else
      var n := |h.redo| - 1;
      ReverseSnoc(h.redo[..n], h.redo[n]);
      assert h.redo == h.redo[..n] + [h.redo[n]];
      History(h.strokes + [h.redo[n]], h.redo[..n])
  }

  /** `canvas:clear`: nothing drawn and nothing to redo. */
  function Clear(h: History): (h': History)
    ensures Timeline(h') == []
  {
    Empty
  }

  /** A history is determined by its timeline and how much of it is drawn. */
  lemma TimelineDetermines(h: History, h': History)
    requires Timeline(h) == Timeline(h')
    requires |h.strokes| == |h'.strokes|
    ensures h == h'
  {
    var n := |h.strokes|;
    assert h.strokes == Timeline(h)[..n];
    assert h'.strokes == Timeline(h')[..n];
    assert Reverse(h.redo) == Reverse(h'.redo);
    assert |h.redo| == |h'.redo|;
    forall i | 0 <= i < |h.redo|
      ensures h.redo[i] == h'.redo[i]
    {
      var j := |h.redo| - 1 - i;
      assert Reverse(h.redo)[j] == h.redo[i];
      assert Reverse(h'.redo)[j] == h'.redo[i];
    }
  }

  /** Appending a stroke and undoing it restores what was drawn, with the
      stroke left as the only thing to redo. */
  lemma UndoAfterAppend(h: History, e: Entry)
    ensures Undo(Append(h, e)) == History(h.strokes, [e])
  {
    assert (h.strokes + [e])[..|h.strokes|] == h.strokes;
  }

  /** Undo then redo is the identity on a non-empty history. */
  lemma RedoAfterUndo(h: History)
    requires h.strokes != []
    ensures Redo(Undo(h)) == h
  {
    TimelineDetermines(Redo(Undo(h)), h);
  }

  /** Redo then undo is the identity on a non-empty redo stack. */
  lemma UndoAfterRedo(h: History)
    requires h.redo != []
    ensures Undo(Redo(h)) == h
  {
    TimelineDetermines(Undo(Redo(h)), h);
  }

  /** After a new stroke or a clear there is nothing to redo. */
  lemma RedoInvalidated(h: History, e: Entry)
    ensures Redo(Append(h, e)) == Append(h, e)
    ensures Redo(Clear(h)) == Clear(h)
  {
  }
}

=== FILE: live_preview.dfy ===
/** The client's table of other participants' strokes in progress
    (`activeRemoteStrokes`), keyed by stroke id and driven by relayed
    "stroke:" messages. Only the table is modelled; the pixels drawn for
    each message are not. */
module LivePreview {
  import opened Common
  import opened Protocol

  /** What the client remembers of a remote stroke between messages: its
      look and the last point drawn, to continue the line from. */
  datatype LiveStroke = LiveStroke(color: Color, width: int, tool: Tool, userId: Id, last: Point, size: Option<int>)

  type LiveTable = map<string, LiveStroke>

  const DefaultEraserSize := 20

  /** `size || 20`: the side of the square an eraser clears. */
  function EraserSize(size: Option<int>): (side: int)
    ensures side != 0
    ensures size.Some? && size.value != 0 ==> side == size.value
    ensures size.None? || size.value == 0 ==> side == DefaultEraserSize
  {
    if size.Some? && size.value != 0 then size.value else DefaultEraserSize
  }

  /** `stroke:point`: a known brush stroke continues from the new point; an
      eraser entry and an unknown id are left alone. */
  function Advance(t: LiveTable, strokeId: string, p: Point): (t': LiveTable)
    ensures t'.Keys == t.Keys
    ensures forall k :: k in t && k != strokeId ==> t'[k] == t[k]
    ensures strokeId in t && t[strokeId].tool == Brush ==> t'[strokeId] == t[strokeId].(last := p)
    ensures strokeId in t && t[strokeId].tool == Eraser ==> t'[strokeId] == t[strokeId]
  {
    if strokeId !in t then t
    else if t[strokeId].tool == Eraser then t
    else t[strokeId := t[strokeId].(last := p)]
  }

  /** `handleRemoteEvent` as written: on `stroke:end` it deletes the key
      `data.strokeId`, but a `stroke:end` message carries its id only inside
      `data.stroke`, so the key is `undefined` and nothing is removed. */
  function ApplyAsWritten(t: LiveTable, ev: LiveEvent): (t': LiveTable)
    ensures t.Keys <= t'.Keys
    ensures ev.StrokeStart? ==>
      t'.Keys == t.Keys + {ev.strokeId} &&
      t'[ev.strokeId] == LiveStroke(ev.color, ev.width, ev.tool, ev.userId, ev.point, ev.size) &&
      forall k :: k in t && k != ev.strokeId ==> t'[k] == t[k]
    ensures ev.StrokePoint? ==> t' == Advance(t, ev.strokeId, ev.point)
    ensures ev.StrokeEnd? || ev.StrokeOther? ==> t' == t
  {
    match ev
    case StrokeStart(id, color, width, tool, userId, size, p) =>
      t[id := LiveStroke(color, width, tool, userId, p, size)]
    case StrokePoint(id, p) => Advance(t, id, p)
    case StrokeEnd(_) => t
    case StrokeOther(_) => t
  }

  /** As written, a remote stroke's entry outlives its `stroke:end`. */
  lemma AsWrittenEndKeepsEntry(t: LiveTable, start: LiveEvent, st: Stroke)
    requires start.StrokeStart? && st.id == start.strokeId
    ensures start.strokeId in ApplyAsWritten(ApplyAsWritten(t, start), StrokeEnd(Some(st)))
  {
  }

  /** `handleRemoteEvent` with `stroke:end` removing the id of the stroke it
      carries, which is the id its `stroke:start` announced. */
  function Apply(t: LiveTable, ev: LiveEvent): (t': LiveTable)
    ensures ev.StrokeStart? ==>
      t'.Keys == t.Keys + {ev.strokeId} &&
      t'[ev.strokeId] == LiveStroke(ev.color, ev.width, ev.tool, ev.userId, ev.point, ev.size) &&
      forall k :: k in t && k != ev.strokeId ==> t'[k] == t[k]
    ensures ev.StrokePoint? ==> t' == Advance(t, ev.strokeId, ev.point)
    ensures ev.StrokePoint? && ev.strokeId !in t ==> t' == t
    ensures ev.StrokePoint? ==> t'.Keys == t.Keys
    ensures ev.StrokeEnd? && ev.stroke.Some? ==>
      t'.Keys == t.Keys - {ev.stroke.value.id} && forall k :: k in t' ==> t'[k] == t[k]
    ensures ev.StrokeEnd? && ev.stroke.None? ==> t' == t
    ensures ev.StrokeOther? ==> t' == t
  {
    match ev
    case StrokeEnd(Some(st)) => t - {st.id}
    case _ => ApplyAsWritten(t, ev)
  }

  /** A run of relayed messages handled with the corrected update, in order. */
  function ApplyAll(t: LiveTable, evs: seq<LiveEvent>): LiveTable
    decreases |evs|
  {
    if evs == [] then t else ApplyAll(Apply(t, evs[0]), evs[1..])
  }

  /** A run of relayed messages handled as written: no entry is ever removed. */
  function ApplyAllAsWritten(t: LiveTable, evs: seq<LiveEvent>): (t': LiveTable)
    ensures t.Keys <= t'.Keys
    decreases |evs|
  {
    if evs == [] then t else ApplyAllAsWritten(ApplyAsWritten(t, evs[0]), evs[1..])
  }

  /** As written, once a `stroke:start` has been handled its id stays in the
      table through whatever follows, its own `stroke:end` included. */
  lemma AsWrittenStartLeavesTrace(t: LiveTable, start: LiveEvent, rest: seq<LiveEvent>)
    requires start.StrokeStart?
    ensures start.strokeId in ApplyAllAsWritten(t, [start] + rest)
  {
    assert ([start] + rest)[0] == start;
    assert ([start] + rest)[1..] == rest;
  }

  /** Points for a stroke id keep its entry and never add another. */
  lemma {:induction false} PointsKeepKeys(t: LiveTable, id: string, ps: seq<Point>)
    requires id in t
    ensures ApplyAll(t, PointEvents(id, ps)).Keys == t.Keys
    ensures forall k :: k in t && k != id ==> ApplyAll(t, PointEvents(id, ps))[k] == t[k]
    decreases |ps|
  {
    if ps != [] {
      assert PointEvents(id, ps)[0] == StrokePoint(id, ps[0]);
      assert PointEvents(id, ps)[1..] == PointEvents(id, ps[1..]);
      PointsKeepKeys(Apply(t, StrokePoint(id, ps[0])), id, ps[1..]);
    }
  }

  function PointEvents(id: string, ps: seq<Point>): (evs: seq<LiveEvent>)
    ensures |evs| == |ps|
    ensures forall i :: 0 <= i < |ps| ==> evs[i] == StrokePoint(id, ps[i])
  {
    seq(|ps|, i requires 0 <= i < |ps| => StrokePoint(id, ps[i]))
  }

  /** With `stroke:end` removing its id, a whole remote gesture — start,
      points, end — leaves the table as it found it. */
  lemma GestureLeavesNoTrace(t: LiveTable, start: LiveEvent, ps: seq<Point>, st: Stroke)
    requires start.StrokeStart? && start.strokeId !in t && st.id == start.strokeId
    ensures ApplyAll(t, [start] + PointEvents(start.strokeId, ps) + [StrokeEnd(Some(st))]) == t
  {
    var id := start.strokeId;
    var t1 := Apply(t, start);
    PointsKeepKeys(t1, id, ps);
    ApplyAllConcat(t, [start], PointEvents(id, ps) + [StrokeEnd(Some(st))]);
    assert [start] + PointEvents(id, ps) + [StrokeEnd(Some(st))] == [start] + (PointEvents(id, ps) + [StrokeEnd(Some(st))]);
    ApplyAllConcat(t1, PointEvents(id, ps), [StrokeEnd(Some(st))]);
    var t2 := ApplyAll(t1, PointEvents(id, ps));
    assert ApplyAll(t2, [StrokeEnd(Some(st))]) == Apply(t2, StrokeEnd(Some(st)));
  }

  lemma {:induction false} ApplyAllConcat(t: LiveTable, a: seq<LiveEvent>, b: seq<LiveEvent>)
    ensures ApplyAll(t, a + b) == ApplyAll(ApplyAll(t, a), b)
    decreases |a|
  {
    if a != [] {
      assert (a + b)[0] == a[0];
      assert (a + b)[1..] == a[1..] + b;
      ApplyAllConcat(Apply(t, a[0]), a[1..], b);
    } else {
      assert a + b == b;
    }
  }
}

=== FILE: palette.dfy ===
/** Colour assignment on connect (`pickColor`). The palette itself is built
    with floating-point HSL arithmetic, so it is a parameter here: any
    sequence of colours, and for the uniqueness results one of distinct
    entries, such as the server's thirty-entry expanded palette. */
module Palette {
  import opened Common
  import opened Protocol
  import opened UserRegistry

  predicate Distinct(p: seq<Color>)
  {
    forall i, j :: 0 <= i < j < |p| ==> p[i] != p[j]
  }

  /** The colours held by current users (`new Set(users.values().map(u => u.color))`,
      leaving out the `undefined` of an entry without a colour). */
  function UsedColors(r: Registry): set<Color>
  {
    set i | 0 <= i < |r| && r[i].user.color.Some? :: r[i].user.color.value
  }

  /** Every palette entry is already in use. */
  predicate Exhausted(p: seq<Color>, used: set<Color>)
  {
    forall i :: 0 <= i < |p| ==> p[i] in used
  }

  /** The first palette entry not in `used`, scanning in palette order. */
  function FirstUnused(p: seq<Color>, used: set<Color>): (o: Option<Color>)
    ensures o.None? <==> Exhausted(p, used)
    ensures o.Some? ==> exists i :: 0 <= i < |p| && p[i] == o.value && Exhausted(p[..i], used)
    ensures o.Some? ==> o.value !in used
  {
    if p == [] then None
    else if p[0] !in used then
      assert p[..0] == [];
      Some(p[0])
    else
      var rest := FirstUnused(p[1..], used);
      if rest.Some? then
        var i :| 0 <= i < |p[1..]| && p[1..][i] == rest.value && Exhausted(p[1..][..i], used);
        assert p[i + 1] == rest.value;
        assert p[..i + 1] == [p[0]] + p[1..][..i];
        rest
      else
        assert forall i :: 1 <= i < |p| ==> p[i] == p[1..][i - 1];
        rest
  }

  /** `pickColor()`: the first palette colour no current user holds, or,
      when every colour is taken, the entry at `users.size mod palette length`. */
  function PickColor(p: seq<Color>, users: Registry): (c: Color)
    requires |p| > 0
    ensures c in p
    ensures !Exhausted(p, UsedColors(users)) ==>
      c !in UsedColors(users) && exists i :: 0 <= i < |p| && p[i] == c && Exhausted(p[..i], UsedColors(users))
    ensures Exhausted(p, UsedColors(users)) ==> c == p[|users| % |p|]
  {
    match FirstUnused(p, UsedColors(users))
    case Some(c) => c
    case None => p[|users| % |p|]
  }

  /** A sequence without repeats has as many distinct elements as entries. */
  lemma {:induction false} DistinctCardinality(p: seq<Color>)
    requires Distinct(p)
    ensures |set i | 0 <= i < |p| :: p[i]| == |p|
  {
    if p != [] {
      var n := |p| - 1;
      var front := p[..n];
      assert Distinct(front);
      DistinctCardinality(front);
      var all := set i | 0 <= i < |p| :: p[i];
      var before := set i | 0 <= i < n :: front[i];
      assert all == before + {p[n]};
      assert p[n] !in before;
    }
  }

  /** There are no more colours in use than there are users. */
  lemma {:induction false} UsedColorsBound(r: Registry)
    ensures |UsedColors(r)| <= |r|
  {
    if r != [] {
      var n := |r| - 1;
      UsedColorsBound(r[..n]);
      var last: set<Color> := if r[n].user.color.Some? then {r[n].user.color.value} else {};
      assert UsedColors(r) <= UsedColors(r[..n]) + last by {
        forall c | c in UsedColors(r)
          ensures c in UsedColors(r[..n]) + last
        {
          var i :| 0 <= i < |r| && r[i].user.color.Some? && r[i].user.color.value == c;
          if i < n {
            assert r[..n][i] == r[i];
          }
        }
      }
      SubsetCardinality(UsedColors(r), UsedColors(r[..n]) + last);
    }
  }

  /** Pigeonhole: fewer users than distinct palette entries leaves a colour free. */
  lemma FreeColorExists(p: seq<Color>, users: Registry)
    requires Distinct(p)
    requires |users| < |p|
    ensures !Exhausted(p, UsedColors(users))
  {
    UsedColorsBound(users);
    DistinctCardinality(p);
    if Exhausted(p, UsedColors(users)) {
      var all := set i | 0 <= i < |p| :: p[i];
      assert all <= UsedColors(users);
      assert |all| <= |UsedColors(users)| by {
        SubsetCardinality(all, UsedColors(users));
      }
      assert false;
    }
  }

  lemma SubsetCardinality(a: set<Color>, b: set<Color>)
    requires a <= b
    ensures |a| <= |b|
  {
    assert b == a + (b - a);
  }

  /** While there are fewer users than palette entries, a new connection's
      colour differs from every current user's colour. */
  lemma PickColorFresh(p: seq<Color>, users: Registry)
    requires Distinct(p)
    requires |users| < |p|
    ensures PickColor(p, users) !in UsedColors(users)
  {
    FreeColorExists(p, users);
  }
}

=== FILE: presence.dfy ===
/** The client's table of other participants' cursors (`cursors`), with
    its freshness rule: an entry older than five seconds is dropped the
    next time the overlay is drawn. The clock is a parameter. */
module Presence {
  import opened Common
  import opened Protocol

  /** Position, look and last-update time (milliseconds) of one cursor. */
  datatype CursorInfo = CursorInfo(x: int, y: int, color: Option<Color>, name: string, ts: int)

  type CursorTable = map<Id, CursorInfo>

  const TtlMs := 5000

  /** Not expired: at most 5000 ms old. */
  predicate Fresh(info: CursorInfo, now: int)
  {
    now - info.ts <= TtlMs
  }

  /** The expiry pass of `renderCursorsOverlay`: exactly the stale entries
      are dropped and the others kept unchanged. */
  function Prune(t: CursorTable, now: int): (t': CursorTable)
    ensures forall id :: id in t' <==> id in t && Fresh(t[id], now)
    ensures forall id :: id in t' ==> t'[id] == t[id]
  {
    map id | id in t && Fresh(t[id], now) :: t[id]
  }

  /** `updateCursor`: record the entry stamped with the current time, then
      render, which prunes. */
  function UpdateCursor(t: CursorTable, userId: Id, x: int, y: int, color: Option<Color>, name: string, now: int): (t': CursorTable)
    ensures userId in t' && t'[userId] == CursorInfo(x, y, color, name, now)
    ensures forall id :: id != userId ==> (id in t' <==> id in t && Fresh(t[id], now))
    ensures forall id :: id in t' && id != userId ==> t'[id] == t[id]
    ensures forall id :: id in t' ==> Fresh(t'[id], now)
  {
    Prune(t[userId := CursorInfo(x, y, color, name, now)], now)
  }

  /** Pruning twice at the same time is pruning once. */
  lemma PruneIdempotent(t: CursorTable, now: int)
    ensures Prune(Prune(t, now), now) == Prune(t, now)
  {
  }

  /** A later expiry pass subsumes an earlier one. */
  lemma PruneLater(t: CursorTable, t1: int, t2: int)
    requires t1 <= t2
    ensures Prune(Prune(t, t1), t2) == Prune(t, t2)
  {
  }
}

=== FILE: protocol.dfy ===
/** The wire protocol between a whiteboard client and the server: the records
    that travel (strokes, roster entries) and one datatype per message
    direction. Each constructor is one value of the messages' `type` field. */
module Protocol {
  import opened Common

  /** Participant identities (server-generated UUIDs) and hex colour strings. */
  type Id = string
  type Color = string

  datatype Point = Point(x: int, y: int)

  /** The two tools; the client only ever sends these two names. */
  datatype Tool = Brush | Eraser

  /** A completed stroke as the client builds it during a gesture. `size` is
      the eraser size, absent for brush strokes. */
  datatype Stroke = Stroke(
    id: string,
    userId: Id,
    tool: Tool,
    color: Color,
    width: int,
    size: Option<int>,
    points: seq<Point>)

  /** The live-preview messages, every `type` that starts with "stroke:".
      `StrokeOther` stands for any other type with that prefix. */
  datatype LiveEvent =
    | StrokeStart(strokeId: string, color: Color, width: int, tool: Tool, userId: Id, size: Option<int>, point: Point)
    | StrokePoint(strokeId: string, point: Point)
    | StrokeEnd(stroke: Option<Stroke>)
    | StrokeOther(kind: string)

  /** Client-to-server messages. `Unknown` is any `type` outside the
      catalogue that does not start with "stroke:". */
  datatype ClientMsg =
    | Join(name: Option<string>)
    | Live(event: LiveEvent)
    | UndoRequest
    | RedoRequest
    | CursorMove(userId: Id, x: int, y: int, color: Option<Color>)
    | CanvasClear
    | Unknown(kind: string)

  /** A roster entry. The server creates `{id, color}` on connect and adds
      `name` on join; an entry created by a join alone has only a name. */
  datatype User = User(id: Option<Id>, color: Option<Color>, name: Option<string>)

  /** An entry the client can show in its users list without failing: its
      label falls back to the id when the name is falsy. */
  predicate Labelable(u: User)
  {
    u.id.Some? || Truthy(u.name)
  }

  /** Server-to-client messages. `Relay` is a live-preview message forwarded
      verbatim; the `strokes` of `user:init` (here `snapshot`) is always sent, but the client
      checks that it is an array, so it is optional here. */
  datatype ServerMsg =
    | UserInit(userId: Id, name: string, color: Option<Color>, users: seq<User>, snapshot: Option<seq<Option<Stroke>>>)
    | UsersUpdate(users: seq<User>)
    | CanvasState(strokes: seq<Option<Stroke>>)
    | CursorOut(userId: Id, name: string, x: int, y: int, color: Option<Color>)
    | Relay(event: LiveEvent)

  /** A message the server emits: to the connection that sent the message
      being handled, or to every open connection. */
  datatype Outbound = ToSender(msg: ServerMsg) | ToAll(msg: ServerMsg)
}

=== FILE: registry.dfy ===
/** The server's user registry, a JavaScript `Map` from connection id to
    roster entry. It is a sequence of slots so that insertion order — the
    order `Array.from(users.values())` lists the roster in — is part of the
    model. */
module UserRegistry {
  import opened Common
  import opened Protocol

  datatype Slot = Slot(key: Id, user: User)

  type Registry = seq<Slot>

  predicate Has(r: Registry, k: Id)
  {
    exists i :: 0 <= i < |r| && r[i].key == k
  }

  /** A `Map` never holds a key twice. */
  predicate KeysDistinct(r: Registry)
  {
    forall i, j :: 0 <= i < j < |r| ==> r[i].key != r[j].key
  }

  /** Position of the first slot with key `k`, if any. */
  function Find(r: Registry, k: Id): (o: Option<nat>)
    ensures o.None? <==> !Has(r, k)
    ensures o.Some? ==> o.value < |r| && r[o.value].key == k
    ensures o.Some? ==> forall j :: 0 <= j < o.value ==> r[j].key != k
  {
    if r == [] then None
    else if r[0].key == k then Some(0)
    else
      match Find(r[1..], k)
      case None => None
      case Some(i) => Some(i + 1)
  }

  /** `users.get(k)`. */
  function Get(r: Registry, k: Id): (o: Option<User>)
    ensures o.Some? <==> Has(r, k)
    ensures KeysDistinct(r) ==> forall i :: 0 <= i < |r| && r[i].key == k ==> o == Some(r[i].user)
  {
    match Find(r, k)
    case None => None
    case Some(i) => Some(r[i].user)
  }

  /** Two registries with the same keys in the same positions find every key
      at the same position. */
  lemma {:induction false} FindSameKeys(r: Registry, r': Registry, k: Id)
    requires |r| == |r'|
    requires forall i :: 0 <= i < |r| ==> r[i].key == r'[i].key
    ensures Find(r, k) == Find(r', k)
  {
    if r != [] && r[0].key != k {
      FindSameKeys(r[1..], r'[1..], k);
    }
  }

  /** Appending a slot does not move the first occurrence of any other key. */
  lemma {:induction false} FindAppend(r: Registry, s: Slot, k: Id)
    requires k != s.key
    ensures Find(r + [s], k) == Find(r, k)
  {
    if r != [] && r[0].key != k {
      assert (r + [s])[1..] == r[1..] + [s];
      FindAppend(r[1..], s, k);
    }
  }

  /** `users.set(k, u)`: replaces the entry in place when `k` is present,
      otherwise adds it at the end. */
  function Put(r: Registry, k: Id, u: User): (r': Registry)
    ensures Get(r', k) == Some(u)
    ensures forall k' :: k' != k ==> Get(r', k') == Get(r, k')
    ensures Has(r, k) ==> |r'| == |r| && forall i :: 0 <= i < |r| ==> r'[i] == if r[i].key == k then Slot(k, u) else r[i]
    ensures !Has(r, k) ==> r' == r + [Slot(k, u)]
    ensures KeysDistinct(r) ==> KeysDistinct(r')
  {
    if Find(r, k).Some? then
      var r' := seq(|r|, i requires 0 <= i < |r| => if r[i].key == k then Slot(k, u) else r[i]);
      assert forall k' :: k' != k ==> Get(r', k') == Get(r, k') by {
        forall k' | k' != k
          ensures Get(r', k') == Get(r, k')
        {
          FindSameKeys(r, r', k');
        }
      }
      FindSameKeys(r, r', k);
      r'
    else
      var r' := r + [Slot(k, u)];
      assert r'[|r|].key == k;
      assert forall i :: 0 <= i < |r| ==> r'[i] == r[i];
      assert forall k' :: k' != k ==> Get(r', k') == Get(r, k') by {
        forall k' | k' != k
          ensures Get(r', k') == Get(r, k')
        {
          FindAppend(r, Slot(k, u), k');
        }
      }
      r'
  }

  /** `users.delete(k)`: drops the slot with key `k`, keeping the order of
      the others. */
  function Delete(r: Registry, k: Id): (r': Registry)
    ensures !Has(r', k)
    ensures forall s :: s in r' <==> s in r && s.key != k
    ensures !Has(r, k) ==> r' == r
    ensures KeysDistinct(r) && Has(r, k) ==>
      r' == r[..Find(r, k).value] + r[Find(r, k).value + 1..]
  {
    if r == [] then []
    else if r[0].key == k then Delete(r[1..], k)
    else
      assert KeysDistinct(r) ==> KeysDistinct(r[1..]);
      assert Has(r, k) ==> Has(r[1..], k) && Find(r, k).value == Find(r[1..], k).value + 1;
      var i := Find(r, k);
      assert KeysDistinct(r) && Has(r, k) ==>
        [r[0]] + (r[1..][..i.value - 1] + r[1..][i.value..]) == r[..i.value] + r[i.value + 1..];
      [r[0]] + Delete(r[1..], k)
  }

  /** Looking a key up in a registry that starts with slot `x`. */
  lemma GetCons(x: Slot, t: Registry, k: Id)
    ensures Get([x] + t, k) == if x.key == k then Some(x.user) else Get(t, k)
  {
    assert ([x] + t)[0] == x;
    assert ([x] + t)[1..] == t;
  }

  /** Deleting one key leaves every other key's entry as it was. */
  lemma {:induction false} DeleteKeepsOthers(r: Registry, k: Id, k': Id)
    requires k' != k
    ensures Get(Delete(r, k), k') == Get(r, k')
  {
    if r != [] {
      DeleteKeepsOthers(r[1..], k, k');
      assert r == [r[0]] + r[1..];
      GetCons(r[0], r[1..], k');
      if r[0].key != k {
        GetCons(r[0], Delete(r[1..], k), k');
      }
    }
  }

  /** Deleting keeps the keys distinct and, for a present key, removes
      exactly one entry. */
  lemma {:induction false} DeleteDistinct(r: Registry, k: Id)
    requires KeysDistinct(r)
    ensures KeysDistinct(Delete(r, k))
    ensures Has(r, k) ==> |Delete(r, k)| == |r| - 1
  {
    if r != [] {
      var rest := Delete(r[1..], k);
      DeleteDistinct(r[1..], k);
      if r[0].key == k {
        assert !Has(r[1..], k);
      } else {
        assert Has(r, k) ==> Has(r[1..], k);
        var r' := [r[0]] + rest;
        forall j | 0 <= j < |rest|
          ensures rest[j].key != r[0].key
        {
          assert rest[j] in r[1..];
          var m :| 0 <= m < |r[1..]| && r[1..][m] == rest[j];
          assert r[m + 1] == rest[j];
        }
        assert Delete(r, k) == r';
      }
    }
  }

  /** `Array.from(users.values())`: the roster in insertion order. */
  function Values(r: Registry): (us: seq<User>)
    ensures |us| == |r|
    ensures forall i :: 0 <= i < |r| ==> us[i] == r[i].user
  {
    seq(|r|, i requires 0 <= i < |r| => r[i].user)
  }
}

=== FILE: server.dfy ===
/** The server session: one record holding the stroke history, the redo
    stack and the user registry, and one step function per thing that can
    happen to it — a connection opening, a message arriving on a
    connection, a connection closing. Broadcasts are returned as a list of
    outbound messages instead of being sent. */
module Server {
  import opened Common
  import opened Protocol
  import opened UserRegistry
  import opened Palette
  import opened StrokeStore

  datatype Session = Session(history: History, users: Registry)

  const Initial := Session(StrokeStore.Empty, [])

  /** `randomUUID()` becomes the id carried by `Connect`. */
  datatype Event = Connect(id: Id) | Message(sender: Id, msg: ClientMsg) | Close(id: Id)

  datatype Reply = Reply(session: Session, out: seq<Outbound>)

  const MaxNameLength := 32
  const DefaultName := "Anonymous"

  /** `broadcastUsers()`: every registered user, in registration order, to
      every connection. */
  function BroadcastUsers(users: Registry): (o: Outbound)
    ensures o.ToAll? && o.msg.UsersUpdate?
    ensures |o.msg.users| == |users|
    ensures forall i :: 0 <= i < |users| ==> o.msg.users[i] == users[i].user
  {
    ToAll(UsersUpdate(Values(users)))
  }

  /** `broadcast()`: the full history to every connection. */
  function BroadcastState(h: History): (o: Outbound)
    ensures o.ToAll? && o.msg.CanvasState?
    ensures o.msg.strokes == h.strokes
  {
    ToAll(CanvasState(h.strokes))
  }

  /** The registered colour of a connection, `undefined` when it has no entry. */
  function RegisteredColor(users: Registry, id: Id): Option<Color>
  {
    match Get(users, id)
    case Some(u) => u.color
    case None => None
  }

  /** The display name a `user:join` stores: the first 32 characters of the
      requested name, or "Anonymous" when none was given. */
  function JoinName(raw: Option<string>): (name: string)
    ensures 0 < |name| <= MaxNameLength
    ensures !Truthy(raw) ==> name == DefaultName
    ensures Truthy(raw) ==> name <= raw.value && |name| == Min(MaxNameLength, |raw.value|)
  {
    var cut := Slice(OrElse(raw, ""), MaxNameLength);
    if cut == "" then DefaultName else cut
  }

  /** A new connection gets an entry `{id, color}` with a colour from the
      palette; the roster is then broadcast. */
  function OnConnect(palette: seq<Color>, s: Session, id: Id): (r: Reply)
    requires |palette| > 0
    ensures Get(r.session.users, id) == Some(User(Some(id), Some(PickColor(palette, s.users)), None))
    ensures forall k :: k != id ==> Get(r.session.users, k) == Get(s.users, k)
    ensures !Has(s.users, id) ==>
      r.session.users == s.users + [Slot(id, User(Some(id), Some(PickColor(palette, s.users)), None))]
    ensures Has(s.users, id) ==>
      |r.session.users| == |s.users| && forall i :: 0 <= i < |s.users| ==> r.session.users[i].key == s.users[i].key
    ensures r.session.history == s.history
    ensures r.out == [BroadcastUsers(r.session.users)]
  {
    var users := Put(s.users, id, User(Some(id), Some(PickColor(palette, s.users)), None));
    Reply(Session(s.history, users), [BroadcastUsers(users)])
  }

  /** `user:join`: sets the sender's name and nothing else, replies with the
      sender's identity and the current history, then broadcasts the roster. */
  function OnJoin(s: Session, sender: Id, raw: Option<string>): (r: Reply)
    ensures r.session.history == s.history
    ensures Get(r.session.users, sender) ==
      Some(match Get(s.users, sender)
           case Some(u) => u.(name := Some(JoinName(raw)))
           case None => User(None, None, Some(JoinName(raw))))
    ensures forall k :: k != sender ==> Get(r.session.users, k) == Get(s.users, k)
    ensures !Has(s.users, sender) ==>
      r.session.users == s.users + [Slot(sender, User(None, None, Some(JoinName(raw))))]
    ensures Has(s.users, sender) ==>
      |r.session.users| == |s.users| && forall i :: 0 <= i < |s.users| ==> r.session.users[i].key == s.users[i].key
    ensures r.out == [
      ToSender(UserInit(sender, JoinName(raw), RegisteredColor(s.users, sender),
                        Values(r.session.users), Some(s.history.strokes))),
      BroadcastUsers(r.session.users)]
  {
    var entry := match Get(s.users, sender)
                 case Some(u) => u
                 case None => User(None, None, None);
    var entry' := entry.(name := Some(JoinName(raw)));
    var users := Put(s.users, sender, entry');
    Reply(Session(s.history, users),
          [ToSender(UserInit(sender, JoinName(raw), entry'.color, Values(users), Some(s.history.strokes))),
           BroadcastUsers(users)])
  }

  /** The stroke as stored: its colour replaced by the registered colour
      when that is set, everything else kept. */
  function Stamp(e: Entry, registered: Option<Color>): (e': Entry)
    ensures e'.None? <==> e.None?
    ensures e.Some? ==> e'.value == e.value.(color := e'.value.color)
    ensures e.Some? && Truthy(registered) ==> e'.value.color == registered.value
    ensures !Truthy(registered) ==> e' == e
  {
    match e
    case Some(st) => Some(st.(color := OrElse(registered, st.color)))
    case None => None
  }

  /** The live-preview relay: every "stroke:" message is forwarded verbatim;
      `stroke:end` additionally appends the stamped stroke and broadcasts
      the history. */
  function OnLive(s: Session, sender: Id, ev: LiveEvent): (r: Reply)
    ensures |r.out| > 0 && r.out[0] == ToAll(Relay(ev))
    ensures !ev.StrokeEnd? ==> r == Reply(s, [ToAll(Relay(ev))])
    ensures ev.StrokeEnd? ==>
      r.session.users == s.users &&
      r.session.history.strokes == s.history.strokes + [Stamp(ev.stroke, RegisteredColor(s.users, sender))] &&
      r.session.history.redo == [] &&
      r.out == [ToAll(Relay(ev)), BroadcastState(r.session.history)]
  {
    match ev
    case StrokeEnd(e) =>
      var h := Append(s.history, Stamp(e, RegisteredColor(s.users, sender)));
      Reply(Session(h, s.users), [ToAll(Relay(ev)), BroadcastState(h)])
    case _ => Reply(s, [ToAll(Relay(ev))])
  }

  /** `undo:request` and `redo:request`: a silent no-op when the source
      stack is empty, otherwise a move between the stacks and a broadcast. */
  function OnUndo(s: Session): (r: Reply)
    ensures r.session.users == s.users
    ensures r.session.history == Undo(s.history)
    ensures s.history.strokes == [] <==> r.out == []
    ensures s.history.strokes != [] ==> r.out == [BroadcastState(r.session.history)]
  {
    if s.history.strokes == [] then Reply(s, [])
    else
      var h := Undo(s.history);
      Reply(Session(h, s.users), [BroadcastState(h)])
  }

  function OnRedo(s: Session): (r: Reply)
    ensures r.session.users == s.users
    ensures r.session.history == Redo(s.history)
    ensures s.history.redo == [] <==> r.out == []
    ensures s.history.redo != [] ==> r.out == [BroadcastState(r.session.history)]
  {
    if s.history.redo == [] then Reply(s, [])
    else
      var h := Redo(s.history);
      Reply(Session(h, s.users), [BroadcastState(h)])
  }

  /** `cursor:move`: no state change; one enriched message to everyone. The
      name and colour are looked up under the id the message claims, not
      under the sender's id. */
  function OnCursor(s: Session, userId: Id, x: int, y: int, color: Option<Color>): (r: Reply)
    ensures r.session == s
    ensures |r.out| == 1 && r.out[0].ToAll? && r.out[0].msg.CursorOut?
    ensures r.out[0].msg.userId == userId && r.out[0].msg.x == x && r.out[0].msg.y == y
    ensures Get(s.users, userId).Some? && Truthy(Get(s.users, userId).value.color) ==>
      r.out[0].msg.color == Get(s.users, userId).value.color
    ensures (Get(s.users, userId).None? || !Truthy(Get(s.users, userId).value.color)) ==>
      r.out[0].msg.color == color
    ensures Get(s.users, userId).Some? && Truthy(Get(s.users, userId).value.name) ==>
      r.out[0].msg.name == Get(s.users, userId).value.name.value
    ensures (Get(s.users, userId).None? || !Truthy(Get(s.users, userId).value.name)) ==>
      r.out[0].msg.name == ""
  {
    var u := match Get(s.users, userId)
             case Some(u) => u
             case None => User(None, None, None);
    Reply(s, [ToAll(CursorOut(userId, OrElse(u.name, ""), x, y, Or(u.color, color)))])
  }

  /** `canvas:clear`: both stacks emptied and the empty history broadcast. */
  function OnClear(s: Session): (r: Reply)
    ensures r.session.users == s.users
    ensures r.session.history.strokes == [] && r.session.history.redo == []
    ensures r.out == [ToAll(CanvasState([]))]
  {
    var h := Clear(s.history);
    Reply(Session(h, s.users), [BroadcastState(h)])
  }

  /** The `message` handler's dispatch on the message type. */
  function OnMessage(s: Session, sender: Id, msg: ClientMsg): (r: Reply)
    ensures msg.Join? ==> r == OnJoin(s, sender, msg.name)
    ensures msg.Live? ==> r == OnLive(s, sender, msg.event)
    ensures msg.UndoRequest? ==> r == OnUndo(s)
    ensures msg.RedoRequest? ==> r == OnRedo(s)
    ensures msg.CursorMove? ==> r == OnCursor(s, msg.userId, msg.x, msg.y, msg.color)
    ensures msg.CanvasClear? ==> r == OnClear(s)
    ensures !msg.Join? ==> r.session.users == s.users
    ensures msg.Join? || msg.CursorMove? || msg.Unknown? ==> r.session.history == s.history
    ensures msg.Unknown? ==> r == Reply(s, [])
  {
    match msg
    case Join(raw) => OnJoin(s, sender, raw)
    case Live(ev) => OnLive(s, sender, ev)
    case UndoRequest => OnUndo(s)
    case RedoRequest => OnRedo(s)
    case CursorMove(userId, x, y, color) => OnCursor(s, userId, x, y, color)
    case CanvasClear => OnClear(s)
    case Unknown(_) => Reply(s, [])
  }

  /** `close`: the connection's entry is removed and the roster broadcast. */
  function OnClose(s: Session, id: Id): (r: Reply)
    ensures id != "" ==> !Has(r.session.users, id)
    ensures forall k :: k != id ==> Get(r.session.users, k) == Get(s.users, k)
    ensures r.session.history == s.history
    ensures id == "" ==> r == Reply(s, [])
    ensures !Has(s.users, id) ==> r.session.users == s.users
    ensures id != "" && KeysDistinct(s.users) && Has(s.users, id) ==>
      r.session.users == s.users[..Find(s.users, id).value] + s.users[Find(s.users, id).value + 1..]
    ensures id != "" ==> r.out == [BroadcastUsers(r.session.users)]
  {
    if id == "" then Reply(s, [])
    else
      var users := Delete(s.users, id);
      assert forall k :: k != id ==> Get(users, k) == Get(s.users, k) by {
        forall k | k != id
          ensures Get(users, k) == Get(s.users, k)
        {
          DeleteKeepsOthers(s.users, id, k);
        }
      }
      Reply(Session(s.history, users), [BroadcastUsers(users)])
  }

  /** One event at the server: a connection, a message from a connection,
      or a close. Only connections, `user:join` and closes touch the
      registry; only messages touch the history. */
  function Step(palette: seq<Color>, s: Session, e: Event): (r: Reply)
    requires |palette| > 0
    ensures e.Connect? ==>
      RegisteredColor(r.session.users, e.id) == Some(PickColor(palette, s.users)) &&
      r.out == [BroadcastUsers(r.session.users)]
    ensures e.Message? ==> r == OnMessage(s, e.sender, e.msg)
    ensures e.Close? ==> r == OnClose(s, e.id)
    ensures e.Connect? ==> Has(r.session.users, e.id) && r.session.history == s.history
    ensures e.Close? ==> r.session.history == s.history
    ensures e.Close? && e.id != "" ==> !Has(r.session.users, e.id)
    ensures e.Message? && e.msg.Join? ==> Has(r.session.users, e.sender)
    ensures e.Message? && !e.msg.Join? ==> r.session.users == s.users
    ensures e.Message? && !e.msg.Live? && !e.msg.UndoRequest? && !e.msg.RedoRequest? && !e.msg.CanvasClear? ==>
      r.session.history == s.history
  {
    match e
    case Connect(id) => OnConnect(palette, s, id)
    case Message(sender, msg) => OnMessage(s, sender, msg)
    case Close(id) => OnClose(s, id)
  }
}

=== FILE: server_laws.dfy ===
/** What the session step function guarantees across calls: the registry
    invariant that gives distinct colours while the palette lasts, the
    undo/redo laws at the level of messages (clearing, then redoing, is in
    `RedoAfterNewTimeline`), a worked two-participant scenario, and a run
    showing why colour uniqueness needs its condition. */
module SessionLaws {
  import opened Common
  import opened Protocol
  import opened UserRegistry
  import opened Palette
  import opened StrokeStore
  import opened Server

  /** Two different connections never hold the same colour. */
  predicate ColorsDistinct(r: Registry)
  {
    forall a, b :: a in r && b in r && a.key != b.key && a.user.color.Some? && b.user.color.Some? ==>
      a.user.color != b.user.color
  }

  /** Every roster entry can be shown by a client. */
  predicate AllLabelable(r: Registry)
  {
    forall a :: a in r ==> Labelable(a.user)
  }

  predicate Inv(s: Session)
  {
    KeysDistinct(s.users) && ColorsDistinct(s.users) && AllLabelable(s.users)
  }

  /** The conditions under which colour uniqueness is promised: every new
      connection gets an id not in use, and arrives while there are fewer
      users than palette entries. */
  predicate Admissible(palette: seq<Color>, s: Session, e: Event)
  {
    e.Connect? ==> !Has(s.users, e.id) && |s.users| < |palette|
  }

  lemma InitialInv()
    ensures Inv(Initial)
  {
  }

  lemma ConnectPreservesInv(palette: seq<Color>, s: Session, id: Id)
    requires Distinct(palette) && |palette| > 0
    requires Inv(s)
    requires !Has(s.users, id) && |s.users| < |palette|
    ensures Inv(OnConnect(palette, s, id).session)
  {
    var c := PickColor(palette, s.users);
    PickColorFresh(palette, s.users);
    var r' := OnConnect(palette, s, id).session.users;
    assert r' == s.users + [Slot(id, User(Some(id), Some(c), None))];
    forall a | a in s.users && a.user.color.Some?
      ensures a.user.color != Some(c)
    {
      var i :| 0 <= i < |s.users| && s.users[i] == a;
    }
  }

  lemma JoinPreservesInv(s: Session, sender: Id, raw: Option<string>)
    requires Inv(s)
    ensures Inv(OnJoin(s, sender, raw).session)
  {
    var r := s.users;
    var r' := OnJoin(s, sender, raw).session.users;
    var name := JoinName(raw);
    if Has(r, sender) {
      var i := Find(r, sender).value;
      var u' := r[i].user.(name := Some(name));
      assert Get(r, sender) == Some(r[i].user);
      assert r' == Put(r, sender, u');
      forall a | a in r'
        ensures (a.key == sender && a == Slot(sender, u')) || (a.key != sender && a in r)
      {
        var j :| 0 <= j < |r'| && r'[j] == a;
      }
      assert r[i] in r;
    } else {
      assert r' == r + [Slot(sender, User(None, None, Some(name)))];
    }
  }

  lemma ClosePreservesInv(s: Session, id: Id)
    requires Inv(s)
    ensures Inv(OnClose(s, id).session)
  {
    if id != "" {
      DeleteDistinct(s.users, id);
    }
  }

  /** One step keeps the invariant. */
  lemma StepPreservesInv(palette: seq<Color>, s: Session, e: Event)
    requires Distinct(palette) && |palette| > 0
    requires Inv(s) && Admissible(palette, s, e)
    ensures Inv(Step(palette, s, e).session)
  {
    match e
    case Connect(id) => ConnectPreservesInv(palette, s, id);
    case Close(id) => ClosePreservesInv(s, id);
    case Message(sender, msg) =>
      if msg.Join? {
        JoinPreservesInv(s, sender, msg.name);
      }
  }

  /** Running a sequence of events from a session. */
  function Run(palette: seq<Color>, s: Session, events: seq<Event>): Session
    requires |palette| > 0
    decreases |events|
  {
    if events == [] then s else Run(palette, Step(palette, s, events[0]).session, events[1..])
  }

  /** Every event of the run is admissible in the session it meets. */
  predicate AdmissibleRun(palette: seq<Color>, s: Session, events: seq<Event>)
    requires |palette| > 0
    decreases |events|
  {
    events == [] ||
    (Admissible(palette, s, events[0]) &&
     AdmissibleRun(palette, Step(palette, s, events[0]).session, events[1..]))
  }

  /** A connection with an id not yet registered appends its entry. */
  lemma ConnectAppends(palette: seq<Color>, s: Session, id: Id)
    requires |palette| > 0 && !Has(s.users, id)
    ensures Step(palette, s, Connect(id)).session ==
      Session(s.history, s.users + [Slot(id, User(Some(id), Some(PickColor(palette, s.users)), None))])
  {
  }

  /** A palette of two colours; three connections, the third past capacity,
      then the second leaves. Two users remain, no more than the palette
      holds, yet both hold the first colour: the fallback colour of an
      over-capacity connection is never reassigned, so a run that connects
      at capacity is outside what `RunKeepsColorsDistinct` can promise. */
  lemma OverflowThenLeaveCollides(x: Color, y: Color, u1: Id, u2: Id, u3: Id)
    requires x != y
    requires u1 != u2 && u1 != u3 && u2 != u3 && u2 != ""
    ensures Distinct([x, y])
    ensures var r := Run([x, y], Initial, [Connect(u1), Connect(u2), Connect(u3), Close(u2)]).users;
      && |r| == 2 <= |[x, y]|
      && RegisteredColor(r, u1) == Some(x)
      && RegisteredColor(r, u3) == Some(x)
      && !ColorsDistinct(r)
  {
    var a1 := Slot(u1, User(Some(u1), Some(x), None));
    var a3 := Slot(u3, User(Some(u3), Some(x), None));
    OverflowRun(x, y, u1, u2, u3);
    BothHold(Run([x, y], Initial, [Connect(u1), Connect(u2), Connect(u3), Close(u2)]).users, a1, a3, x);
  }

  /** The registry the run of `OverflowThenLeaveCollides` ends with. */
  lemma OverflowRun(x: Color, y: Color, u1: Id, u2: Id, u3: Id)
    requires x != y
    requires u1 != u2 && u1 != u3 && u2 != u3 && u2 != ""
    ensures Run([x, y], Initial, [Connect(u1), Connect(u2), Connect(u3), Close(u2)]).users ==
      [Slot(u1, User(Some(u1), Some(x), None)), Slot(u3, User(Some(u3), Some(x), None))]
  {
    var p := [x, y];
    var events := [Connect(u1), Connect(u2), Connect(u3), Close(u2)];
    var a1 := Slot(u1, User(Some(u1), Some(x), None));
    var a2 := Slot(u2, User(Some(u2), Some(y), None));
    var a3 := Slot(u3, User(Some(u3), Some(x), None));
    var s1 := Session(StrokeStore.Empty, [a1]);
    var s2 := Session(StrokeStore.Empty, [a1, a2]);
    var s3 := Session(StrokeStore.Empty, [a1, a2, a3]);
    var s4 := Session(StrokeStore.Empty, [a1, a3]);
    FirstThreeConnects(x, y, a1, a2, a3);
    LastLeaves(x, y, a1, a2, a3);
    var e1 := events[1..];
    var e2 := e1[1..];
    var e3 := e2[1..];
    RunCons(p, Initial, events, s1);
    RunCons(p, s1, e1, s2);
    RunCons(p, s2, e2, s3);
    RunCons(p, s3, e3, s4);
    assert e3[1..] == [];
  }

  /** The run of `OverflowThenLeaveCollides` is not admissible: its third
      connection arrives when both palette colours are held, which is the
      only condition of `RunKeepsColorsDistinct` the run breaks. */
  lemma OverflowRunInadmissible(x: Color, y: Color, u1: Id, u2: Id, u3: Id)
    requires x != y
    requires u1 != u2 && u1 != u3 && u2 != u3 && u2 != ""
    ensures Admissible([x, y], Initial, Connect(u1))
    ensures Admissible([x, y], Step([x, y], Initial, Connect(u1)).session, Connect(u2))
    ensures !AdmissibleRun([x, y], Initial, [Connect(u1), Connect(u2), Connect(u3), Close(u2)])
  {
    var p := [x, y];
    var events := [Connect(u1), Connect(u2), Connect(u3), Close(u2)];
    var a1 := Slot(u1, User(Some(u1), Some(x), None));
    var a2 := Slot(u2, User(Some(u2), Some(y), None));
    var a3 := Slot(u3, User(Some(u3), Some(x), None));
    var s1 := Session(StrokeStore.Empty, [a1]);
    var s2 := Session(StrokeStore.Empty, [a1, a2]);
    FirstThreeConnects(x, y, a1, a2, a3);
    var e1 := events[1..];
    var e2 := e1[1..];
    assert events[0] == Connect(u1) && e1[0] == Connect(u2) && e2[0] == Connect(u3);
    assert !Has(s1.users, u2) by { assert s1.users[0] == a1; }
    assert !Admissible(p, s2, e2[0]);
    assert !AdmissibleRun(p, s2, e2);
    assert !AdmissibleRun(p, s1, e1);
  }

  /** The three connections of `OverflowThenLeaveCollides`. */
  lemma FirstThreeConnects(x: Color, y: Color, a1: Slot, a2: Slot, a3: Slot)
    requires x != y
    requires a1.key != a2.key && a1.key != a3.key && a2.key != a3.key
    requires a1 == Slot(a1.key, User(Some(a1.key), Some(x), None))
    requires a2 == Slot(a2.key, User(Some(a2.key), Some(y), None))
    requires a3 == Slot(a3.key, User(Some(a3.key), Some(x), None))
    ensures Step([x, y], Initial, Connect(a1.key)).session == Session(StrokeStore.Empty, [a1])
    ensures Step([x, y], Session(StrokeStore.Empty, [a1]), Connect(a2.key)).session == Session(StrokeStore.Empty, [a1, a2])
    ensures Step([x, y], Session(StrokeStore.Empty, [a1, a2]), Connect(a3.key)).session == Session(StrokeStore.Empty, [a1, a2, a3])
  {
    var p := [x, y];
    ConnectAppends(p, Initial, a1.key);
    assert UsedColors([]) == {};
    assert !Exhausted(p[..1], {}) by { assert p[..1][0] == x; }
    assert !Exhausted(p[..2], {}) by { assert p[..2][0] == x; }
    assert PickColor(p, []) == x;
    assert [] + [a1] == [a1];
    assert !Has([a1], a2.key) by { assert [a1][0] == a1; }
    ConnectAppends(p, Session(StrokeStore.Empty, [a1]), a2.key);
    assert UsedColors([a1]) == {x} by { assert [a1][0] == a1; }
    assert !Exhausted(p, {x}) by { assert p[1] == y; }
    assert !Exhausted(p[..2], {x}) by { assert p[..2][1] == y; }
    assert PickColor(p, [a1]) == y;
    assert !Has([a1, a2], a3.key) by { assert [a1, a2][0] == a1 && [a1, a2][1] == a2; }
    ConnectAppends(p, Session(StrokeStore.Empty, [a1, a2]), a3.key);
    assert UsedColors([a1, a2]) == {x, y} by {
      assert [a1, a2][0] == a1 && [a1, a2][1] == a2;
    }
    assert Exhausted(p, {x, y});
    assert PickColor(p, [a1, a2]) == p[2 % 2];
  }

  /** The close of `OverflowThenLeaveCollides`: the second user leaves. */
  lemma LastLeaves(x: Color, y: Color, a1: Slot, a2: Slot, a3: Slot)
    requires a1.key != a2.key && a1.key != a3.key && a2.key != a3.key && a2.key != ""
    ensures Step([x, y], Session(StrokeStore.Empty, [a1, a2, a3]), Close(a2.key)).session ==
      Session(StrokeStore.Empty, [a1, a3])
  {
    var r := [a1, a2, a3];
    assert r[0] == a1 && r[1] == a2 && r[2] == a3;
    assert KeysDistinct(r);
    assert Find(r, a2.key) == Some(1);
    assert r[..1] + r[2..] == [a1, a3];
  }

  /** The registry `OverflowThenLeaveCollides` ends with. */
  lemma BothHold(r: Registry, a1: Slot, a3: Slot, x: Color)
    requires a1.key != a3.key
    requires a1.user.color == Some(x) && a3.user.color == Some(x)
    requires r == [a1, a3]
    ensures |r| == 2
    ensures RegisteredColor(r, a1.key) == Some(x) && RegisteredColor(r, a3.key) == Some(x)
    ensures !ColorsDistinct(r)
  {
    assert r[0] == a1 && r[1] == a3;
    assert Find(r, a3.key) == Some(1);
  }

  /** One step of a run. */
  lemma RunCons(p: seq<Color>, s: Session, events: seq<Event>, s': Session)
    requires |p| > 0 && |events| > 0
    requires Step(p, s, events[0]).session == s'
    ensures Run(p, s, events) == Run(p, s', events[1..])
  {
  }

  /** Colour uniqueness: from the empty session, any run in which each
      connection arrives while fewer users than palette entries are
      connected ends with every pair of users holding different colours. */
  lemma {:induction false} RunKeepsColorsDistinct(palette: seq<Color>, s: Session, events: seq<Event>)
    requires Distinct(palette) && |palette| > 0
    requires Inv(s)
    requires AdmissibleRun(palette, s, events)
    ensures Inv(Run(palette, s, events))
    ensures ColorsDistinct(Run(palette, s, events).users)
    decreases |events|
  {
    if events != [] {
      StepPreservesInv(palette, s, events[0]);
      RunKeepsColorsDistinct(palette, Step(palette, s, events[0]).session, events[1..]);
    }
  }

  /** Colour fallback: past palette capacity a connection still gets a
      palette colour. */
  lemma ConnectAlwaysGetsPaletteColor(palette: seq<Color>, s: Session, id: Id)
    requires |palette| > 0
    ensures RegisteredColor(OnConnect(palette, s, id).session.users, id).Some?
    ensures RegisteredColor(OnConnect(palette, s, id).session.users, id).value in palette
  {
  }

  /** Snapshot consistency: the history a joining client receives is the
      server's history at that moment, and joining does not change it. */
  lemma JoinSnapshot(s: Session, sender: Id, raw: Option<string>)
    ensures OnMessage(s, sender, Join(raw)).out[0].msg.snapshot == Some(s.history.strokes)
    ensures OnMessage(s, sender, Join(raw)).session.history == s.history
  {
  }

  /** `stroke:start`, `stroke:point` and other "stroke:" messages are only
      relayed: history, redo stack and users stay as they were. */
  lemma RelayOnly(s: Session, sender: Id, ev: LiveEvent)
    requires !ev.StrokeEnd?
    ensures OnMessage(s, sender, Live(ev)) == Reply(s, [ToAll(Relay(ev))])
  {
  }

  /** `stroke:end` then `undo:request`, from any connections, restores the
      drawn history and leaves exactly the new stroke to redo. */
  lemma UndoAfterStrokeEnd(s: Session, a: Id, b: Id, e: Entry)
    ensures var s1 := OnMessage(s, a, Live(StrokeEnd(e))).session;
            OnMessage(s1, b, UndoRequest).session ==
              Session(History(s.history.strokes, [Stamp(e, RegisteredColor(s.users, a))]), s.users)
  {
    UndoAfterAppend(s.history, Stamp(e, RegisteredColor(s.users, a)));
  }

  /** Undo then redo, and redo then undo, give back the session. */
  lemma UndoRedoInverse(s: Session, a: Id, b: Id)
    ensures s.history.strokes != [] ==>
      OnMessage(OnMessage(s, a, UndoRequest).session, b, RedoRequest).session == s
    ensures s.history.redo != [] ==>
      OnMessage(OnMessage(s, a, RedoRequest).session, b, UndoRequest).session == s
  {
    if s.history.strokes != [] { RedoAfterUndo(s.history); }
    if s.history.redo != [] { UndoAfterRedo(s.history); }
  }

  /** After a new stroke or a clear, `redo:request` changes nothing and sends nothing. */
  lemma RedoAfterNewTimeline(s: Session, a: Id, b: Id, e: Entry)
    ensures var s1 := OnMessage(s, a, Live(StrokeEnd(e))).session;
            OnMessage(s1, b, RedoRequest) == Reply(s1, [])
    ensures var s2 := OnMessage(s, a, CanvasClear).session;
            OnMessage(s2, b, RedoRequest) == Reply(s2, [])
  {
  }

  /** The enrichment of `cursor:move` depends on the id in the message, not
      on which connection sent it. */
  lemma CursorIgnoresSender(s: Session, a: Id, b: Id, userId: Id, x: int, y: int, color: Option<Color>)
    ensures OnMessage(s, a, CursorMove(userId, x, y, color)) == OnMessage(s, b, CursorMove(userId, x, y, color))
  {
  }

  /** Two participants with registered colours each finish a stroke declared
      black; history holds both in order with their owners' colours; undo
      moves the second to the redo stack and redo brings it back. */
  lemma TwoParticipantScenario(strokeA: Stroke, strokeB: Stroke)
    requires strokeA.color == "#000000" && strokeB.color == "#000000"
    ensures
      var users := [Slot("A", User(Some("A"), Some("#E53935"), Some("Ann"))),
                    Slot("B", User(Some("B"), Some("#1E88E5"), Some("Bob")))];
      var s0 := Session(StrokeStore.Empty, users);
      var s1 := OnMessage(s0, "A", Live(StrokeEnd(Some(strokeA)))).session;
      var s2 := OnMessage(s1, "B", Live(StrokeEnd(Some(strokeB)))).session;
      var s3 := OnMessage(s2, "A", UndoRequest).session;
      var s4 := OnMessage(s3, "B", RedoRequest).session;
      && s2.history.strokes == [Some(strokeA.(color := "#E53935")), Some(strokeB.(color := "#1E88E5"))]
      && s3.history == History([Some(strokeA.(color := "#E53935"))], [Some(strokeB.(color := "#1E88E5"))])
      && s4.history.strokes == s2.history.strokes
      && s4.history.redo == []
  {
    var users := [Slot("A", User(Some("A"), Some("#E53935"), Some("Ann"))),
                  Slot("B", User(Some("B"), Some("#1E88E5"), Some("Bob")))];
    assert Get(users, "A") == Some(users[0].user);
    assert Get(users, "B") == Some(users[1].user);
    var a := Some(strokeA.(color := "#E53935"));
    var b := Some(strokeB.(color := "#1E88E5"));
    var s0 := Session(StrokeStore.Empty, users);
    var s1 := OnMessage(s0, "A", Live(StrokeEnd(Some(strokeA)))).session;
    assert s1 == Session(History([a], []), users);
    var s2 := OnMessage(s1, "B", Live(StrokeEnd(Some(strokeB)))).session;
    assert s2 == Session(History([a, b], []), users);
    var s3 := OnMessage(s2, "A", UndoRequest).session;
    assert s3 == Session(History([a], [b]), users);
  }
}

=== FILE: sync.dfy ===
/** How the server and the clients fit together: every history a client
    installs is the server's, verbatim; every roster the server sends can
    be rendered; a local gesture becomes one stroke in the authoritative
    history with the sender's colour. The live preview of that gesture stays
    behind in the other clients' tables as the client is written, and is
    cleared by the corrected table update. */
module Sync {
  import opened Common
  import opened Protocol
  import opened UserRegistry
  import opened StrokeStore
  import opened Server
  import opened SessionLaws
  import opened LivePreview
  import opened Drawing
  import opened Client

  /** Replacing or adding a labelable entry keeps the registry labelable. */
  lemma PutKeepsLabelable(r: Registry, k: Id, u: User)
    requires AllLabelable(r) && Labelable(u)
    ensures AllLabelable(Put(r, k, u))
  {
    var r' := Put(r, k, u);
    forall a | a in r'
      ensures Labelable(a.user)
    {
      var j :| 0 <= j < |r'| && r'[j] == a;
      if !Has(r, k) && j == |r| {
      } else {
        assert r[j] in r;
      }
    }
  }

  /** Every entry the server ever holds can be shown by a client, whatever
      the palette and whether or not ids are fresh. */
  lemma StepKeepsLabelable(palette: seq<Color>, s: Session, e: Event)
    requires |palette| > 0
    requires AllLabelable(s.users)
    ensures AllLabelable(Step(palette, s, e).session.users)
  {
    match e
    case Connect(id) =>
      PutKeepsLabelable(s.users, id, User(Some(id), Some(Palette.PickColor(palette, s.users)), None));
    case Close(id) =>
    case Message(sender, msg) =>
      if msg.Join? {
        var entry := match Get(s.users, sender)
                     case Some(u) => u
                     case None => User(None, None, None);
        PutKeepsLabelable(s.users, sender, entry.(name := Some(JoinName(msg.name))));
      }
  }

  /** Every message the server emits can be handled by every client. */
  lemma OutputsHandleable(palette: seq<Color>, s: Session, e: Event)
    requires |palette| > 0
    requires AllLabelable(s.users)
    ensures forall o :: o in Step(palette, s, e).out ==> Handleable(o.msg)
  {
    StepKeepsLabelable(palette, s, e);
    var r := Step(palette, s, e);
    forall o | o in r.out && o.msg.UsersUpdate?
      ensures forall u :: u in o.msg.users ==> Labelable(u)
    {
      assert o.msg.users == Values(r.session.users);
      forall u | u in o.msg.users
        ensures Labelable(u)
      {
        var i :| 0 <= i < |o.msg.users| && o.msg.users[i] == u;
        assert r.session.users[i] in r.session.users;
      }
    }
  }

  /** Any client that receives a history-carrying message from a step ends
      up with a mirror equal to the server's history after that step. */
  lemma BroadcastInstallsHistory(palette: seq<Color>, s: Session, e: Event, o: Outbound, c: ClientState, now: int)
    requires |palette| > 0
    requires o in Step(palette, s, e).out
    requires o.msg.CanvasState? || o.msg.UserInit?
    ensures Handleable(o.msg)
    ensures Dispatch(c, o.msg, now).mirror == Step(palette, s, e).session.history.strokes
  {
  }

  /** A `user:init` goes only to the joining connection; everything else
      goes to every connection. */
  lemma OnlyInitIsPrivate(palette: seq<Color>, s: Session, e: Event)
    requires |palette| > 0
    ensures forall o :: o in Step(palette, s, e).out ==> (o.ToSender? <==> o.msg.UserInit?)
  {
  }

  /** Stroke colour integrity end to end: the stroke a gesture sends lands at
      the end of the history with the sender's registered colour, the same
      id and the gesture's points; every client then mirrors it. */
  lemma GestureReachesHistory(s: Session, sender: Id, ts: ToolState, strokeId: string,
                              p0: Point, ps: seq<Point>, c: ClientState, now: int)
    requires MayDraw(ts)
    requires Truthy(RegisteredColor(s.users, sender))
    ensures
      var down := PointerDown(None, ts, strokeId, p0);
      var moves := Moves(down.gesture, ts, ps);
      var sent := Live(StrokeEnd(moves.gesture));
      var r := OnMessage(s, sender, sent);
      var last := r.session.history.strokes[|r.session.history.strokes| - 1];
      && PointerUp(moves.gesture).sent == [sent]
      && |r.session.history.strokes| == |s.history.strokes| + 1
      && last.Some?
      && last.value.color == RegisteredColor(s.users, sender).value
      && last.value.id == strokeId
      && last.value.points == [p0] + ps
      && r.out[1] == ToAll(CanvasState(r.session.history.strokes))
      && Dispatch(c, r.out[1].msg, now).mirror == r.session.history.strokes
  {
    WholeGesture(ts, strokeId, p0, ps);
  }

  /** As the client is written, the live preview of a whole gesture, relayed
      verbatim by the server and handled by another client's `Dispatch`,
      leaves the gesture's id in that client's live-preview table. */
  lemma AsWrittenPreviewLeavesTrace(ts: ToolState, strokeId: string, p0: Point, ps: seq<Point>, c: ClientState, now: int)
    requires MayDraw(ts)
    ensures
      var down := PointerDown(None, ts, strokeId, p0);
      var moves := Moves(down.gesture, ts, ps);
      var up := PointerUp(moves.gesture);
      strokeId in DispatchAll(c, Relays(LiveEvents(down.sent + moves.sent + up.sent)), now).live
  {
    var down := PointerDown(None, ts, strokeId, p0);
    var moves := Moves(down.gesture, ts, ps);
    var up := PointerUp(moves.gesture);
    LiveEventsConcat(down.sent + moves.sent, up.sent);
    LiveEventsConcat(down.sent, moves.sent);
    var evs := LiveEvents(down.sent + moves.sent + up.sent);
    assert LiveEvents(down.sent) == [down.sent[0].event];
    assert evs == [down.sent[0].event] + (LiveEvents(moves.sent) + LiveEvents(up.sent));
    AsWrittenStartLeavesTrace(c.live, down.sent[0].event, LiveEvents(moves.sent) + LiveEvents(up.sent));
    RelaysAsWritten(c, evs, now);
  }

  /** With the corrected table update, the live preview of a whole gesture,
      relayed verbatim by the server and handled by another client's
      `DispatchCorrected`, leaves that client's table as it was. */
  lemma CorrectedPreviewLeavesNoTrace(ts: ToolState, strokeId: string, p0: Point, ps: seq<Point>, c: ClientState, now: int)
    requires MayDraw(ts)
    requires strokeId !in c.live
    ensures
      var down := PointerDown(None, ts, strokeId, p0);
      var moves := Moves(down.gesture, ts, ps);
      var up := PointerUp(moves.gesture);
      DispatchAllCorrected(c, Relays(LiveEvents(down.sent + moves.sent + up.sent)), now) == c
  {
    var down := PointerDown(None, ts, strokeId, p0);
    var moves := Moves(down.gesture, ts, ps);
    var up := PointerUp(moves.gesture);
    WholeGesture(ts, strokeId, p0, ps);
    MovesExtend(down.gesture.value, ts, ps);
    LiveEventsConcat(down.sent + moves.sent, up.sent);
    LiveEventsConcat(down.sent, moves.sent);
    assert LiveEvents(down.sent) == [down.sent[0].event];
    assert LiveEvents(up.sent) == [StrokeEnd(moves.gesture)];
    GestureLeavesNoTrace(c.live, down.sent[0].event, ps, moves.gesture.value);
    RelaysCorrected(c, LiveEvents(down.sent + moves.sent + up.sent), now);
  }
}
